=== FILE: README.md ===
# mmjy-data-generator in Dafny

A Dafny model of the pure core of mmjy-data-generator. This pipeline turns
geonames records (countries, cities, continents, languages, boundary shapes)
into GeoJSON feature collections. The model covers four pieces:

- **Boundary reduction** (`lib/polygon.js`), in `polygon.dfy`. Every point of
  a ring is rounded to one decimal. A point is kept only when it lies at least
  `tolerance` away, in longitude or latitude, from the last kept point. Rings
  with fewer than four points are dropped. `reduce` retries from tolerance 0.4,
  dividing it by 1.25, until some coordinates survive. A MultiPolygon that
  keeps a single polygon is returned as a Polygon. The retry loop has no bound
  in the source, so the model runs it with explicit fuel.
  `Polygon.ReduceTerminates` then shows, for exact arithmetic on the
  coordinates, exactly when the loop stops: when some ring still has four
  points after rounding and removal of repeated consecutive points. With the
  source's IEEE doubles the loop can also stop on other rings (see "Left out").
- **Formatting** (`lib/format.js`), in `format.dfy`:
  - `coords` is `toFixed` on reals, rounding half away from zero, with
    precision 2 by default.
  - `bbox` is the closed five-point box ring.
  - `number` covers the rounding to thousands and the choice of format
    pattern.
  - `timezone` covers the choice of name.
- **Place index** (`lib/matter.js`), in `matter.dfy`. It collects the `places`
  and `route` entries of all pages, removes repeated entries (the first one
  stays), and keys each entry by its geonameid. A later entry overwrites an
  earlier one.
- **Record joins** (`lib/transform.js`), in `transform.dfy`. This covers
  `apply`, cities (including the US state suffix), continents (member
  countries), countries (continent, languages, neighbours, geometries,
  toponym, capital) and the custom continents. Every `TypeError` that
  lib/transform.js throws on a missing record is an `Error` value of a `Result`.

Supporting modules:

- `wrappers.dfy`: `Option` and `Result`.
- `seqs.dfy`: subsequences, filter, map.
- `strings.dfy`: `split`/`join`, `substr`, string order.
- `lodash.dfy`: `find` as the first match, and `sortBy` as a stable insertion
  sort.
- `geo.dfy`: positions, rings, surfaces, geometries.

Three services lie outside the modelled files, so every operation that needs
them takes them as parameters:

- the rounding of `./coords` (lib/coords.js is not part of this model);
- `slug`;
- the fuel bound of the reduction loop.

The comment at `lib/polygon.js:84` says the tolerance is increased by 25%. The
code divides it by 1.25, so it shrinks. The model follows the code.

## Model

| member | source | states |
|---|---|---|
| Format.ToFixed | lib/format.js:39-40 | below 1e21 the result has at most `digits` decimals: scaled by 10^digits it is the nearest integer to the scaled input, within half a unit, a tie going away from zero; a value of magnitude at least 1e21 comes back unchanged |
| Format.ToFixedIdempotent | lib/format.js:39-40 | rounding an already rounded coordinate again leaves it as it is |
| Format.ToFixedOdd | lib/format.js:39-40 | rounding is symmetric about zero (`toFixed` rounds the magnitude) |
| Format.RoundHalfAway | lib/format.js:39-40 | the rounded integer is within one half of the input, and ties go away from zero |
| Format.EffectivePrecision | lib/format.js:33-37 | a missing precision means 2; an explicit precision, 0 included, is kept |
| Format.Coords | lib/format.js:36-42 | both components are rounded with `toFixed` at the effective precision |
| Format.CoordsIdempotent | lib/format.js:36-42 | formatting formatted coordinates changes nothing |
| Format.BBox | lib/format.js:45-55 | one ring of five points, closed, with corners (east,north), (east,south), (west,south), (west,north), each through `coords` |
| Format.BBoxAxisAligned | lib/format.js:48-52 | every edge of the box ring keeps either its longitude or its latitude |
| Format.MathRound | lib/format.js:59 | `Math.round` lands within [-1/2, 1/2) of the input |
| Format.Number | lib/format.js:58-60 | values of at most 1000 pass unchanged; larger ones become the nearest multiple of 1000, a tie going up as `Math.round` does (so 2500 gives 3000); the abbreviated pattern is chosen exactly above 1e6 |
| Format.NumberValueIdempotent | lib/format.js:59 | rounding a rounded number again gives the same value |
| Format.TimezoneOf | lib/format.js:77-83 | the name is `timeZoneId` when it is set (non-empty), otherwise `name` |
| Polygon.RoundRing | lib/polygon.js:43 | every point of the ring is rounded at `PRECISION` 1 |
| Polygon.Sweep | lib/polygon.js:41-52 | the kept points are a subsequence; the first point is always kept; consecutive kept points differ by at least the tolerance in one coordinate; an input already spaced this way, whose first point is kept, passes unchanged |
| Polygon.DecimateRing | lib/polygon.js:40-52 | a decimated ring is a subsequence of the rounded ring, starts at its rounded first point, is spaced by the tolerance, and is what the `set.reduce` fold over the rounded ring pushes |
| Polygon.SweepSnoc | lib/polygon.js:42-51 | one more input point is appended exactly when nothing was kept yet or it is far enough from the last kept point; a point that is not is dropped and nothing else changes |
| Polygon.SweepIsFold | lib/polygon.js:42-52 | the sweep equals the `set.reduce` fold that pushes each point kept after the accumulator's last point |
| Polygon.EffectiveTolerance | lib/polygon.js:37 | a missing or zero tolerance becomes 0.4; any other is kept |
| Polygon.DecimateAll | lib/polygon.js:40-52 | one decimated ring per input ring, in order |
| Polygon.ReducePolygon | lib/polygon.js:36-57 | never more rings than the input; every kept ring has at least 4 points |
| Polygon.ReducePolygonKeeps | lib/polygon.js:53-56 | the kept rings are exactly the long enough decimated rings, each as often as it occurs, in input order |
| Polygon.ReducePolygonSpec | lib/polygon.js:36-57 | each kept ring traces back to one input ring, as a subsequence of its rounding that starts at its rounded first point, spaced by the effective tolerance |
| Polygon.ToleranceClosedForm | lib/polygon.js:63-84 | attempt k runs at 0.4 / 1.25^k |
| Polygon.ToleranceDecreasing | lib/polygon.js:63-84 | the tolerance is positive and strictly decreasing from attempt to attempt |
| Polygon.TolerancePositive | lib/polygon.js:63-84 | every attempt's tolerance lies in (0, 0.4] |
| Polygon.ReduceEach | lib/polygon.js:79 | each polygon of a MultiPolygon is reduced at the same tolerance |
| Polygon.Attempt | lib/polygon.js:76-83 | a Polygon attempt is `reducePolygon` of its rings at attempt k's tolerance; a MultiPolygon attempt keeps, in order, exactly the non-empty reduced polygons, each as often as it occurs; the shape type is kept and every ring has at least 4 points |
| Polygon.FirstSurvivor | lib/polygon.js:76-86 | the loop stops at the first attempt that leaves coordinates; every earlier attempt left none |
| Polygon.Simplify | lib/polygon.js:89-94 | a MultiPolygon with exactly one polygon becomes a Polygon with its rings; otherwise the type is kept |
| Polygon.Reduce | lib/polygon.js:60-95 | a result is non-empty with rings of at least 4 points; a Polygon stays a Polygon; a MultiPolygon result has at least two polygons, none empty; the result is the simplified first surviving attempt; no result exactly when no attempt within the fuel survives |
| Polygon.FirstSurvivorFuel | lib/polygon.js:76-86 | once the loop has stopped, more rounds change nothing |
| Polygon.ReduceFuelMonotone | lib/polygon.js:76-86 | the fuel only bounds the loop: a result reached stays the result for more fuel |
| Polygon.Collapse | lib/polygon.js:41-52 | removal of repeated consecutive points gives a subsequence (the limit of the sweep at a small tolerance) |
| Polygon.SweepAtMostCollapse | lib/polygon.js:44-47 | at a positive tolerance the sweep keeps no more points than the repeat-free ring |
| Polygon.SweepIsCollapse | lib/polygon.js:44-47 | below every gap between distinct points the sweep keeps exactly the repeat-free ring |
| Polygon.ToleranceEventuallyBelow | lib/polygon.js:84 | the shrinking tolerance falls below any positive bound |
| Polygon.RingNeverLong | lib/polygon.js:53-56 | a ring without 4 distinct consecutive rounded points is dropped at every attempt |
| Polygon.RingEventuallyLong | lib/polygon.js:53-56 | a ring with 4 of them survives some attempt |
| Polygon.PolygonEmptied | lib/polygon.js:36-57 | with no such ring, `reducePolygon` keeps nothing |
| Polygon.PolygonKept | lib/polygon.js:36-57 | a ring long enough after decimation keeps the polygon non-empty |
| Polygon.AttemptEmptied | lib/polygon.js:76-83 | with no such ring, every attempt leaves no coordinates |
| Polygon.ReduceStopsWhenSurvivable | lib/polygon.js:76-86 | with such a ring, the loop stops after finitely many rounds |
| Polygon.ReduceRunsOnWhenNotSurvivable | lib/polygon.js:76-86 | with exact arithmetic, without such a ring the loop never stops |
| Polygon.ReduceTerminates | lib/polygon.js:76-86 | with exact arithmetic, the loop stops if and only if some ring keeps 4 points after rounding and removal of repeated consecutive points |
| Matter.Collect | lib/matter.js:44-50 | an entry is collected exactly when some page lists it in `places` or `route`; one page contributes its places followed by its route, in their own order |
| Matter.CollectAppend | lib/matter.js:46-50 | collection follows page order: collecting two batches is collecting each and concatenating |
| Matter.IndexOf | lib/matter.js:52 | `indexOf` gives the first position of a value, or -1 exactly when it is absent |
| Matter.FirstOccurrences | lib/matter.js:51-53 | the filtered prefix has no repeats, keeps every value, and orders values by first occurrence |
| Matter.Dedup | lib/matter.js:51-53 | no value twice, the same values as the input, in first-occurrence order |
| Matter.FirstOccurrencesUnique | lib/matter.js:51-53 | on a list without repeats, every entry is a first occurrence |
| Matter.DedupUnique | lib/matter.js:51-53 | a list without repeats passes the filter unchanged |
| Matter.DedupIdempotent | lib/matter.js:51-53 | filtering twice is filtering once |
| Matter.KeyOf | lib/matter.js:55 | the key is the prefix before the first `-`, or the whole entry |
| Matter.KeyOfSplit | lib/matter.js:55 | the key is the first part of `split('-')`, so the direct definition agrees with the source's expression |
| Matter.KeyOfEntry | lib/matter.js:55 | the key of `id-slug` is `id`, whatever the slug contains |
| Matter.Index | lib/matter.js:54-58 | every value under key k is one of the entries and has key k |
| Matter.IndexKeys | lib/matter.js:54-58 | the keys are exactly the keys of the entries |
| Matter.IndexLastWins | lib/matter.js:56 | an entry that no later entry shares a key with is the value under its key |
| Matter.PlaceIndex | lib/matter.js:43-58 | every value is an entry some page names, stored under its own geonameid |
| Matter.PlaceIndexKeys | lib/matter.js:43-58 | the index maps exactly the geonameids of the entries the pages name |
| Matter.PlaceIndexValues | lib/matter.js:43-58 | every geonameid maps to an entry some page names, carrying that geonameid |
| Matter.PlaceIndexUnique | lib/matter.js:43-58 | an entry whose geonameid no other entry shares is the value under it |
| Lodash.FindIndex | lib/transform.js:44 | `find` picks the first matching element, and finds nothing exactly when nothing matches |
| Lodash.Find | lib/transform.js:44 | the found element is the first element of the table that matches; nothing is found exactly when nothing matches |
| Lodash.Insert | lib/transform.js:266 | insertion keeps order and stability: the new element follows every element with the same key |
| Lodash.SortBy | lib/transform.js:266 | `sortBy` returns a permutation, sorted by key, where elements of equal key keep their input order |
| Strings.Split | lib/transform.js:154 | `split` yields parts without the separator that join back to the input; the first part is the prefix before the first separator |
| Strings.SplitJoin | lib/transform.js:154 | splitting a join of separator-free parts gives back the parts |
| Strings.Take | lib/transform.js:156 | `substr(0, 2)` is a prefix of length at most 2 |
| Transform.MapAll | lib/transform.js:259-261 | the map succeeds exactly when every element's transform does, element by element; otherwise the first failing element's error is reported |
| Transform.Apply | lib/transform.js:255-268 | one feature per element, sorted by name, a permutation of the transformed elements, stable among equal names; any element's failure fails the whole collection |
| Transform.ApplyMembers | lib/transform.js:259-266 | the features are exactly the transforms of the elements |
| Transform.TransformCity | lib/transform.js:41-88 | fails exactly when no country feature has the city's code; otherwise the country is the first feature with that code, the name is `name, admin1` for US cities and `name` otherwise, the slug is made of name and country code, the timezone is present exactly when the table has one of that name and is then the first such record formatted, and population and point are formatted |
| Transform.Cities | lib/transform.js:255-268 | fails exactly when some city has no country, with the first such city's error; otherwise the per-city transforms, reordered so that they are sorted by name, cities of equal name keeping their input order |
| Transform.Members | lib/transform.js:94-103 | fails exactly when some country feature has no continent; otherwise the references of the features in the continent, in feature order, each as often as it occurs |
| Transform.MembersListed | lib/transform.js:94-103 | the member list has at most one entry per feature, and holds exactly the references of features whose continent has the code |
| Transform.ContinentGeometries | lib/transform.js:117-126 | the centre point then the box polygon; fails exactly without a box |
| Transform.TransformContinent | lib/transform.js:92-128 | fails exactly without a box or when some country has no continent; otherwise id, code, slug, name, population, timezone (present exactly when the record has one) and the centre-and-box geometries come from the record, and its countries are the members of its code reordered by name, equal names keeping feature order |
| Transform.Continents | lib/transform.js:255-268 | fails exactly when some continent lacks a box, or when a country feature lacks a continent and there is at least one continent; otherwise the per-continent transforms, reordered so that they are sorted by name, equal names keeping their input order |
| Transform.CountryContinent | lib/transform.js:140-151 | the first continent listing the country, else the first with its continent code; none exactly when neither exists |
| Transform.Languages | lib/transform.js:154-161 | no code twice; each entry is the table's row for the first two characters of some code; every code the table knows gets an entry |
| Transform.LanguagesBounded | lib/transform.js:154-161 | at most one language per listed code |
| Transform.Neighbours | lib/transform.js:164-174 | entry i is the country the i-th resolvable code names, so unresolved codes are skipped and order and repeats follow the codes; every entry traces to a code and every resolvable code has its entry |
| Transform.ShapeGeometry | lib/transform.js:198-206 | no shape record adds nothing; with one, the geometry is the reduced shape, and it fails exactly when the shape never reduces |
| Transform.CountryGeometries | lib/transform.js:176-206 | point, box and shape, in that order, each present exactly when its record exists; fails exactly when the shape never reduces |
| Transform.Toponym | lib/transform.js:225 | the API toponym when present and non-empty, otherwise the country name |
| Transform.Capital | lib/transform.js:228 | an empty or missing capital becomes none |
| Transform.TransformCountry | lib/transform.js:132-240 | fails exactly when the country's shape never reduces; otherwise the languages are the collected languages stably sorted by name, with codes never repeated; the neighbours are the resolved neighbours stably sorted by name; the timezone is the API record's formatted timezone, present exactly when that record has one; geometries, toponym, capital and continent are those of their own rules, and id, code, name, slug, area, population and currency come from the record |
| Transform.Countries | lib/transform.js:255-268 | the per-country transforms, reordered so that they are sorted by name, equal names keeping their input order; a failure is the first failing country's error and can only come from a shape |
| Transform.CustomContinent | lib/transform.js:245-250 | fails exactly without a configuration entry, or without country codes in either place; otherwise the code comes from the entry, name and box fall back to the record's, and the codes from `cc2` are at least one comma-free part that joins back into it; nothing else changes |
| Transform.TransformCustom | lib/transform.js:243-252 | every continent is completed independently, in input order |

## Left out

- index.js (the `async.auto` wiring), lib/reader.js and lib/parser.js (CSV streaming) and config.js (static data). They are scheduling and I/O. The lookup tables are parameters instead.
- `slugify`, `timezoneOffset` and `numeral` rendering. These call `slug`, `moment` (which reads the clock) and `numeral`. Slugs come from a parameter, timezone offsets are carried unformatted, and `number` yields the value and pattern it would render.
- `extractMatter` (lib/matter.js:37-40). This is the gray-matter TOML read; the model starts from each page's `places` and `route` fields.
- `JSON.parse` of a shape record (lib/transform.js:201). Shapes are given already parsed.
- console output, and `process.exit`.
- IEEE 754 arithmetic. Coordinates, tolerances and numbers are reals. `toFixed` is modelled as exact decimal rounding, without binary representation error, and `toFixed`'s `RangeError` for precisions above 100 is not modelled.
- Format.ToFixed: rounds the exact real to the nearest multiple of 10^-digits, ties away from zero. A double whose binary value lies just below a decimal tie prints the other neighbour, and the model does not capture that.
- The rounding of `./coords` (lib/coords.js is not part of this model). It is the `Rounder` parameter.
- Polygon.ReduceTerminates: holds for exact arithmetic only. In IEEE doubles, once the tolerance falls below half the spacing of doubles near a coordinate `x` (after about 150 divisions for `x` near 50), `x + tolerance` rounds back to `x`. The test `x >= x + tolerance` (lib/polygon.js:45-46) then passes, so repeated points are kept and a ring of four or more points in total survives. A repeated point at the origin passes only when the tolerance underflows to 0, and then `tolerance || TOLERANCE` (line 37) restores 0.4, so a ring of repeated origin points never survives there either. Doubles are not modelled.
- Polygon.ReduceRunsOnWhenNotSurvivable: holds for exact arithmetic only, for the reason given for `Polygon.ReduceTerminates`.
- Polygon.Reduce: the unbounded `do … while` is cut off after `fuel` rounds. `None` stands for "not stopped yet", and `Polygon.ReduceTerminates` characterises when some fuel suffices.
- Geometry types other than Polygon and MultiPolygon passed to `reduce`. Other types are not produced by the shape table.
- JavaScript string comparison uses UTF-16 code units. The model orders strings by Dafny characters, which agrees except across surrogate pairs.
- lodash `matchesProperty` with a non-array value uses deep equality. The model compares strings directly, and treats `matches('cc', [code])` as "the `cc` list contains `code`".
- Transform.ConfigEntry: an entry without `code` (which would set `continentCode` to `undefined`) is not modelled; `code` is a string.
- Transform.TransformCity: a missing timezone gives `null`, as in the source, and the warning is not modelled. The `admin1` field is a string, so the `undefined` that `util.format` would print for a missing one is not modelled.
- The shipped config.js has no `continents` entries with an `id` field. With it, `transformCustom` would fail on every continent (`Transform.Error.NoConfig`). The model takes the configuration as a parameter.
- JavaScript object key order of the place index. The index is a Dafny `map`, which has no order.

=== FILE: format.dfy ===
/** Coordinate, box, number and timezone formatting (lib/format.js). */
module Format {
  import opened Wrappers
  import opened Geo

  /** Decimal places used when `coords` is given no precision. */
  const DefaultPrecision: nat := 2

  /** `toFixed` writes numbers of at least this magnitude without rounding them. */
  const FixedLimit: real := 1_000_000_000_000_000_000_000.0

  function Abs(x: real): real {
    if x < 0.0 then -x else x
  }

  /** `x * 10^digits`, one decimal place at a time. */
  function Scaled(x: real, digits: nat): real {
    if digits == 0 then x else 10.0 * Scaled(x, digits - 1)
  }

  /** `y / 10^digits`, one decimal place at a time. */
  function Unscaled(y: real, digits: nat): real {
    if digits == 0 then y else Unscaled(y, digits - 1) / 10.0
  }

  lemma {:induction false} ScaledTenth(x: real, digits: nat)
    ensures Scaled(x / 10.0, digits) == Scaled(x, digits) / 10.0
  {
    if digits > 0 {
      ScaledTenth(x, digits - 1);
    }
  }

  lemma {:induction false} ScaledUnscaled(y: real, digits: nat)
    ensures Scaled(Unscaled(y, digits), digits) == y
  {
    if digits > 0 {
      var w := Unscaled(y, digits - 1);
      ScaledTenth(w, digits);
      ScaledUnscaled(y, digits - 1);
    }
  }

  /** Scaling keeps the sign. */
  lemma {:induction false} ScaledSign(x: real, digits: nat)
    ensures Scaled(x, digits) > 0.0 <==> x > 0.0
    ensures Scaled(x, digits) < 0.0 <==> x < 0.0
  {
    if digits > 0 {
      ScaledSign(x, digits - 1);
    }
  }

  lemma {:induction false} ScaledNeg(x: real, digits: nat)
    ensures Scaled(-x, digits) == -Scaled(x, digits)
  {
    if digits > 0 {
      ScaledNeg(x, digits - 1);
    }
  }

  lemma {:induction false} UnscaledNeg(y: real, digits: nat)
    ensures Unscaled(-y, digits) == -Unscaled(y, digits)
  {
    if digits > 0 {
      UnscaledNeg(y, digits - 1);
    }
  }

  /** Nearest integer to `y`, ties away from zero (how `toFixed` rounds). */
  function RoundHalfAway(y: real): (n: int)
    ensures -0.5 <= n as real - y <= 0.5
    ensures n as real - y == 0.5 ==> y > 0.0
    ensures n as real - y == -0.5 ==> y < 0.0
  {
    if y < 0.0 then -((-y + 0.5).Floor) else (y + 0.5).Floor
  }

  lemma RoundHalfAwayOdd(y: real)
    ensures RoundHalfAway(-y) == -RoundHalfAway(y)
  {
  }

  /** `parseFloat(x.toFixed(digits))` on an exact real; `toFixed` leaves huge magnitudes alone. */
  function ToFixed(x: real, digits: nat): (r: real)
    ensures Abs(x) < FixedLimit ==> Scaled(r, digits) == RoundHalfAway(Scaled(x, digits)) as real
    ensures Abs(x) < FixedLimit ==> Scaled(r, digits).Floor as real == Scaled(r, digits)
    ensures Abs(x) < FixedLimit ==> -0.5 <= Scaled(r, digits) - Scaled(x, digits) <= 0.5
    ensures Abs(x) < FixedLimit && Scaled(r, digits) - Scaled(x, digits) == 0.5 ==> x > 0.0
    ensures Abs(x) < FixedLimit && Scaled(r, digits) - Scaled(x, digits) == -0.5 ==> x < 0.0
    ensures Abs(x) >= FixedLimit ==> r == x
  {
    if Abs(x) >= FixedLimit then x
    else
      var n := RoundHalfAway(Scaled(x, digits));
      ScaledUnscaled(n as real, digits);
      ScaledSign(x, digits);
      Unscaled(n as real, digits)
  }

  /** A value with at most `digits` decimals (`n` units of the last place) is left as it is. */
  lemma ToFixedOnGrid(n: int, digits: nat)
    ensures ToFixed(Unscaled(n as real, digits), digits) == Unscaled(n as real, digits)
  {
    var u := Unscaled(n as real, digits);
    if Abs(u) < FixedLimit {
      ScaledUnscaled(n as real, digits);
      RoundHalfAwayInt(n);
      assert RoundHalfAway(Scaled(u, digits)) == n;
    }
  }

  lemma RoundHalfAwayInt(n: int)
    ensures RoundHalfAway(n as real) == n
  {
  }

  /** Rounding an already rounded value changes nothing. */
  lemma {:induction false} ToFixedIdempotent(x: real, digits: nat)
    ensures ToFixed(ToFixed(x, digits), digits) == ToFixed(x, digits)
  {
    if Abs(x) < FixedLimit {
      ToFixedOnGrid(RoundHalfAway(Scaled(x, digits)), digits);
    }
  }

  /** Rounding is symmetric about zero. */
  lemma ToFixedOdd(x: real, digits: nat)
    ensures ToFixed(-x, digits) == -ToFixed(x, digits)
  {
    if Abs(x) < FixedLimit {
      ScaledNeg(x, digits);
      RoundHalfAwayOdd(Scaled(x, digits));
      UnscaledNeg(RoundHalfAway(Scaled(x, digits)) as real, digits);
    }
  }

  /** `null != precision ? precision : DEFAULT_PRECISION`: only a missing value falls back. */
  function EffectivePrecision(precision: Option<nat>): (d: nat)
    ensures precision.None? ==> d == DefaultPrecision
    ensures precision.Some? ==> d == precision.value
  {
    precision.GetOr(DefaultPrecision)
  }

  /** `coords`: both components rounded to the effective precision. */
  function Coords(p: Position, precision: Option<nat>): (r: Position)
    ensures precision.None? ==> r == Position(ToFixed(p.lng, DefaultPrecision), ToFixed(p.lat, DefaultPrecision))
    ensures precision.Some? ==> r == Position(ToFixed(p.lng, precision.value), ToFixed(p.lat, precision.value))
  {
    var d := EffectivePrecision(precision);
    Position(ToFixed(p.lng, d), ToFixed(p.lat, d))
  }

  /** Formatting a formatted coordinate again leaves it as it is. */
  lemma CoordsIdempotent(p: Position, precision: Option<nat>)
    ensures Coords(Coords(p, precision), precision) == Coords(p, precision)
  {
    var d := EffectivePrecision(precision);
    ToFixedIdempotent(p.lng, d);
    ToFixedIdempotent(p.lat, d);
  }

  /** A geonames bounding box. */
  datatype Box = Box(east: real, north: real, south: real, west: real)

  /** `bbox`: the box as one closed five-point ring, starting at its north-east corner. */
  function BBox(box: Box): (r: seq<Ring>)
    ensures |r| == 1 && |r[0]| == 5
    ensures r[0][0] == r[0][4]
    ensures r[0][0] == Coords(Position(box.east, box.north), None)
    ensures r[0][1] == Coords(Position(box.east, box.south), None)
    ensures r[0][2] == Coords(Position(box.west, box.south), None)
    ensures r[0][3] == Coords(Position(box.west, box.north), None)
  {
    [[ Coords(Position(box.east, box.north), None),
       Coords(Position(box.east, box.south), None),
       Coords(Position(box.west, box.south), None),
       Coords(Position(box.west, box.north), None),
       Coords(Position(box.east, box.north), None) ]]
  }

  /** Every edge of the box ring is a meridian or a parallel segment. */
  lemma BBoxAxisAligned(box: Box)
    ensures var ring := BBox(box)[0];
      forall i :: 0 <= i < 4 ==> ring[i].lng == ring[i + 1].lng || ring[i].lat == ring[i + 1].lat
  {
  }

  /** numeral.js format strings chosen by `number`. */
  datatype Pattern =
    | Abbreviated  // '0.0a'
    | Grouped      // '0,0'

  /** The value handed to numeral.js and the format string applied to it. */
  datatype NumberFormat = NumberFormat(value: real, pattern: Pattern)

  /** JavaScript's `Math.round`: nearest integer, ties towards positive infinity. */
  function MathRound(x: real): (n: int)
    ensures -0.5 <= x - n as real < 0.5
  {
    (x + 0.5).Floor
  }

  /** `number`: what is rendered, not the rendering itself. */
  function Number(n: real): (r: NumberFormat)
    ensures n <= 1000.0 ==> r.value == n
    ensures n > 1000.0 ==> && r.value.Floor as real == r.value
                           && r.value.Floor % 1000 == 0
                           && r.value >= 1000.0
                           && n - 500.0 < r.value <= n + 500.0
    ensures r.pattern == Abbreviated <==> n > 1_000_000.0
  {
    var rounded := if n > 1000.0 then (MathRound(n / 1000.0) * 1000) as real else n;
    var pattern := if n > 1_000_000.0 then Abbreviated else Grouped;
    NumberFormat(rounded, pattern)
  }

  /** Rounding an already rounded value changes nothing. */
  lemma NumberValueIdempotent(n: real)
    ensures Number(Number(n).value).value == Number(n).value
  {
    var v := Number(n).value;
    if n > 1000.0 && v > 1000.0 {
      var m := v.Floor / 1000;
      assert v == (m * 1000) as real;
      assert v / 1000.0 == m as real;
      assert MathRound(v / 1000.0) == m;
    }
  }

  /** A geonames timezone record. */
  datatype TimezoneRecord = TimezoneRecord(timeZoneId: Option<string>, name: string, dstOffset: real, gmtOffset: real)

  /** A formatted timezone; the offsets are carried unformatted. */
  datatype Timezone = Timezone(name: string, dstOffset: real, gmtOffset: real)

  /** JavaScript truthiness of an optional string. */
  predicate Truthy(s: Option<string>) {
    s.Some? && s.value != ""
  }

  /** `timezone`: the identifier when it is set, otherwise the plain name. */
  function TimezoneOf(obj: TimezoneRecord): (r: Timezone)
    ensures Truthy(obj.timeZoneId) ==> r.name == obj.timeZoneId.value
    ensures !Truthy(obj.timeZoneId) ==> r.name == obj.name
    ensures r.dstOffset == obj.dstOffset && r.gmtOffset == obj.gmtOffset
  {
    Timezone(if Truthy(obj.timeZoneId) then obj.timeZoneId.value else obj.name, obj.dstOffset, obj.gmtOffset)
  }
}

=== FILE: geo.dfy ===
/** The GeoJSON values the pipeline produces. */
module Geo {

  /** A GeoJSON position: `[longitude, latitude]`. */
  datatype Position = Position(lng: real, lat: real)

  /** One linear ring of a polygon. */
  type Ring = seq<Position>

  /** The coordinates of a `Polygon` or a `MultiPolygon`, tagged with their type. */
  datatype Surface =
    | Polygon(rings: seq<Ring>)
    | MultiPolygon(polygons: seq<seq<Ring>>)
  {
    /** JavaScript's `coordinates.length`. */
    function Size(): nat {
      match this
      case Polygon(rings) => |rings|
      case MultiPolygon(polygons) => |polygons|
    }
  }

  /** A feature's geometry: a point, a (multi)polygon or a collection of geometries. */
  datatype Geometry =
    | Point(position: Position)
    | Area(surface: Surface)
    | GeometryCollection(geometries: seq<Geometry>)
}

=== FILE: lodash.dfy ===
/** The two lodash helpers the transforms use: `find` and the stable `sortBy`. */
module Lodash {
  import opened Wrappers
  import opened Strings

  /** Index of the first element satisfying `p` (`lodash.find` returns that element). */
  function FindIndex<T>(s: seq<T>, p: T -> bool): (r: Option<nat>)
    ensures r.Some? ==> r.value < |s| && p(s[r.value])
    ensures r.Some? ==> forall j :: 0 <= j < r.value ==> !p(s[j])
    ensures r.None? <==> forall j :: 0 <= j < |s| ==> !p(s[j])
  {
    if |s| == 0 then None
    else if p(s[0]) then Some(0)
    else match FindIndex(s[1..], p)
      case None => None
      case Some(i) => Some(i + 1)
  }

  /** `lodash.find`: the first element satisfying `p`, or nothing. */
  function Find<T>(s: seq<T>, p: T -> bool): (r: Option<T>)
    ensures r.Some? ==> r.value in s && p(r.value)
    ensures r.Some? ==> exists i :: 0 <= i < |s| && s[i] == r.value && forall j :: 0 <= j < i ==> !p(s[j])
    ensures r.None? <==> forall x :: x in s ==> !p(x)
  {
    match FindIndex(s, p)
    case None => None
    case Some(i) => Some(s[i])
  }

  /** Non-decreasing by `key` under JavaScript string comparison. */
  predicate SortedBy<T>(s: seq<T>, key: T -> string) {
    forall i, j :: 0 <= i < j < |s| ==> LexLessEq(key(s[i]), key(s[j]))
  }

  /** The elements of `s` whose key is `k`, in order. */
  function WithKey<T>(s: seq<T>, key: T -> string, k: string): seq<T> {
    if |s| == 0 then []
    else (if key(s[0]) == k then [s[0]] else []) + WithKey(s[1..], key, k)
  }

  lemma {:induction false} WithKeySnoc<T>(s: seq<T>, x: T, key: T -> string, k: string)
    ensures WithKey(s + [x], key, k) == WithKey(s, key, k) + (if key(x) == k then [x] else [])
    decreases |s|
  {
    if |s| > 0 {
      assert (s + [x])[1..] == s[1..] + [x];
      WithKeySnoc(s[1..], x, key, k);
    }
  }

  lemma {:induction false} WithKeyNone<T>(s: seq<T>, key: T -> string, k: string)
    requires forall i :: 0 <= i < |s| ==> key(s[i]) != k
    ensures WithKey(s, key, k) == []
    decreases |s|
  {
    if |s| > 0 {
      WithKeyNone(s[1..], key, k);
    }
  }

  /** Places `x` after every element whose key is at most `x`'s. */
  function Insert<T>(s: seq<T>, x: T, key: T -> string): (r: seq<T>)
    requires SortedBy(s, key)
    ensures multiset(r) == multiset(s) + multiset{x}
    ensures SortedBy(r, key)
    ensures forall k :: WithKey(r, key, k) == WithKey(s, key, k) + (if key(x) == k then [x] else [])
    decreases |s|
  {
    if |s| == 0 then [x]
    else if LexLessEq(key(s[0]), key(x)) then
      var tail := Insert(s[1..], x, key);
      InsertHeadSorted(s, x, tail, key);
      InsertHeadMultiset(s, x, tail);
      InsertHeadKeys(s, x, tail, key);
      [s[0]] + tail
    else
      InsertFrontSorted(s, x, key);
      [x] + s
  }

  lemma InsertHeadSorted<T>(s: seq<T>, x: T, tail: seq<T>, key: T -> string)
    requires |s| > 0 && SortedBy(s, key) && LexLessEq(key(s[0]), key(x))
    requires multiset(tail) == multiset(s[1..]) + multiset{x}
    requires SortedBy(tail, key)
    ensures SortedBy([s[0]] + tail, key)
  {
    var r := [s[0]] + tail;
    forall j | 0 < j < |r|
      ensures LexLessEq(key(s[0]), key(r[j]))
    {
      assert r[j] == tail[j - 1];
      assert r[j] in multiset(tail);
      if r[j] != x {
        assert r[j] in multiset(s[1..]);
        var m :| 1 <= m < |s| && s[m] == r[j];
      }
    }
  }

  lemma InsertHeadKeys<T>(s: seq<T>, x: T, tail: seq<T>, key: T -> string)
    requires |s| > 0
    requires forall k :: WithKey(tail, key, k) == WithKey(s[1..], key, k) + (if key(x) == k then [x] else [])
    ensures forall k :: WithKey([s[0]] + tail, key, k) == WithKey(s, key, k) + (if key(x) == k then [x] else [])
  {
    assert s == [s[0]] + s[1..];
    forall k
      ensures WithKey([s[0]] + tail, key, k) == WithKey(s, key, k) + (if key(x) == k then [x] else [])
    {
      WithKeyCons(s[0], tail, key, k);
      WithKeyCons(s[0], s[1..], key, k);
      var head: seq<T> := if key(s[0]) == k then [s[0]] else [];
      var extra: seq<T> := if key(x) == k then [x] else [];
      assert head + (WithKey(s[1..], key, k) + extra) == (head + WithKey(s[1..], key, k)) + extra;
    }
  }

  lemma InsertHeadMultiset<T>(s: seq<T>, x: T, tail: seq<T>)
    requires |s| > 0
    requires multiset(tail) == multiset(s[1..]) + multiset{x}
    ensures multiset([s[0]] + tail) == multiset(s) + multiset{x}
  {
    assert s == [s[0]] + s[1..];
    assert multiset([s[0]] + tail) == multiset{s[0]} + multiset(tail);
  }

  lemma WithKeyCons<T>(x: T, s: seq<T>, key: T -> string, k: string)
    ensures WithKey([x] + s, key, k) == (if key(x) == k then [x] else []) + WithKey(s, key, k)
  {
    assert ([x] + s)[1..] == s;
  }

  lemma InsertFrontSorted<T>(s: seq<T>, x: T, key: T -> string)
    requires |s| > 0 && SortedBy(s, key) && !LexLessEq(key(s[0]), key(x))
    ensures SortedBy([x] + s, key)
    ensures forall k :: WithKey([x] + s, key, k) == WithKey(s, key, k) + (if key(x) == k then [x] else [])
  {
    LexLessEqTotal(key(s[0]), key(x));
    forall j | 0 <= j < |s|
      ensures LexLessEq(key(x), key(s[j])) && key(s[j]) != key(x)
    {
      if j > 0 {
        LexLessEqTrans(key(x), key(s[0]), key(s[j]));
      }
    }
    forall k
      ensures WithKey([x] + s, key, k) == WithKey(s, key, k) + (if key(x) == k then [x] else [])
    {
      assert ([x] + s)[1..] == s;
      if key(x) == k {
        WithKeyNone(s, key, k);
      }
    }
  }

  /** `lodash.sortBy` on one string key: a stable sort. */
  function SortBy<T>(s: seq<T>, key: T -> string): (r: seq<T>)
    ensures |r| == |s|
    ensures multiset(r) == multiset(s)
    ensures SortedBy(r, key)
    ensures forall k :: WithKey(r, key, k) == WithKey(s, key, k)
    decreases |s|
  {
    if |s| == 0 then []
    else
      var n := |s| - 1;
      var sorted := SortBy(s[..n], key);
      assert s == s[..n] + [s[n]];
      forall k
        ensures WithKey(s, key, k) == WithKey(s[..n], key, k) + (if key(s[n]) == k then [s[n]] else [])
      {
        WithKeySnoc(s[..n], s[n], key, k);
      }
      var r := Insert(sorted, s[n], key);
      assert |r| == |multiset(r)|;
      r
  }
}

=== FILE: matter.dfy ===
/**
 * The place index (lib/matter.js): every place and route entry named in the
 * pages' front matter, without repetitions, keyed by its geonameid.
 */
module Matter {
  import opened Wrappers
  import opened Seqs
  import opened Strings

  /**
   * The two front matter fields the index reads from one page; `None` is a
   * field that is missing (or falsy) in the page's TOML header.
   */
  datatype FrontMatter = FrontMatter(places: Option<seq<string>>, route: Option<seq<string>>)

  /** `list || [ ]`. */
  function OrEmpty(list: Option<seq<string>>): seq<string> {
    match list
    case None => []
    case Some(entries) => entries
  }

  /** The entries one page contributes: its places, then its route. */
  function Entries(page: FrontMatter): seq<string> {
    OrEmpty(page.places) + OrEmpty(page.route)
  }

  /** Lines 44-50: the entries of all pages, page after page, as the `reduce` appends them. */
  function Collect(pages: seq<FrontMatter>): (r: seq<string>)
    ensures |pages| == 1 ==> r == OrEmpty(pages[0].places) + OrEmpty(pages[0].route)
    ensures forall x :: x in r <==> exists i :: 0 <= i < |pages| && x in Entries(pages[i])
  {
    if |pages| == 0 then []
    else
      var n := |pages| - 1;
      var prev := Collect(pages[..n]);
      assert forall x :: x in prev + Entries(pages[n]) <==> exists i :: 0 <= i < |pages| && x in Entries(pages[i]) by {
        forall x
          ensures x in prev + Entries(pages[n]) <==> exists i :: 0 <= i < |pages| && x in Entries(pages[i])
        {
          if x in prev {
            var i :| 0 <= i < n && x in Entries(pages[..n][i]);
            assert pages[..n][i] == pages[i];
          }
          if exists i :: 0 <= i < |pages| && x in Entries(pages[i]) {
            var i :| 0 <= i < |pages| && x in Entries(pages[i]);
            if i < n {
              assert pages[..n][i] == pages[i];
            }
          }
        }
      }
      prev + Entries(pages[n])
  }

  /** Collecting two batches of pages is collecting each and concatenating. */
  lemma {:induction false} CollectAppend(a: seq<FrontMatter>, b: seq<FrontMatter>)
    ensures Collect(a + b) == Collect(a) + Collect(b)
    decreases |b|
  {
    if |b| > 0 {
      var b' := b[..|b| - 1];
      assert (a + b)[..|a + b| - 1] == a + b';
      CollectAppend(a, b');
    } else {
      assert a + b == a;
    }
  }

  /** `self.indexOf(value)`: the first position of `x` in `s`, or -1. */
  function IndexOf(s: seq<string>, x: string): (i: int)
    ensures -1 <= i < |s|
    ensures i == -1 <==> x !in s
    ensures i >= 0 ==> s[i] == x && x !in s[..i]
  {
    if |s| == 0 then -1
    else if s[0] == x then 0
    else
      var j := IndexOf(s[1..], x);
      if j == -1 then
        assert s == [s[0]] + s[1..];
        -1
      else
        assert s[..j + 1] == [s[0]] + s[1..][..j];
        j + 1
  }

  /**
   * Lines 51-53 over the first `n` entries: an entry stays when it sits at the
   * first position of its value.
   */
  function FirstOccurrences(s: seq<string>, n: nat): (r: seq<string>)
    requires n <= |s|
    ensures NoDuplicates(r)
    ensures forall x :: x in r <==> x in s[..n]
    ensures forall i :: 0 <= i < |r| ==> IndexOf(s, r[i]) >= 0
    ensures forall i, j :: 0 <= i < j < |r| ==> IndexOf(s, r[i]) < IndexOf(s, r[j])
  {
    if n == 0 then []
    else
      var prev := FirstOccurrences(s, n - 1);
      var x := s[n - 1];
      assert s[..n] == s[..n - 1] + [x];
      if IndexOf(s, x) == n - 1 then
        assert x !in s[..n - 1];
        assert forall y :: y in prev ==> IndexOf(s, y) < n - 1 by {
          forall y | y in prev
            ensures IndexOf(s, y) < n - 1
          {
            assert y in s[..n - 1];
            var k :| 0 <= k < n - 1 && s[..n - 1][k] == y;
            assert s[k] == y;
          }
        }
        prev + [x]
      else
        assert x in s[..n - 1] by {
          var i := IndexOf(s, x);
          assert 0 <= i < n - 1;
          assert s[..n - 1][i] == x;
        }
        prev
  }

  /** Lines 51-53: `filter` keeping the first occurrence of every entry. */
  function Dedup(s: seq<string>): (r: seq<string>)
    ensures NoDuplicates(r)
    ensures forall x :: x in r <==> x in s
    ensures forall i, j :: 0 <= i < j < |r| ==> IndexOf(s, r[i]) < IndexOf(s, r[j])
  {
    assert s[..|s|] == s;
    FirstOccurrences(s, |s|)
  }

  /** Over a list without repetitions every entry is a first occurrence. */
  lemma {:induction false} FirstOccurrencesUnique(s: seq<string>, n: nat)
    requires n <= |s| && NoDuplicates(s)
    ensures FirstOccurrences(s, n) == s[..n]
  {
    if n > 0 {
      FirstOccurrencesUnique(s, n - 1);
      var x := s[n - 1];
      assert s[..n] == s[..n - 1] + [x];
    }
  }

  /** A list without repetitions passes the filter unchanged. */
  lemma DedupUnique(s: seq<string>)
    requires NoDuplicates(s)
    ensures Dedup(s) == s
  {
    FirstOccurrencesUnique(s, |s|);
    assert s[..|s|] == s;
  }

  /** Removing repetitions twice is removing them once. */
  lemma DedupIdempotent(s: seq<string>)
    ensures Dedup(Dedup(s)) == Dedup(s)
  {
    DedupUnique(Dedup(s));
  }

  /** Line 55: the geonameid, everything before the first `-`. */
  function KeyOf(field: string): (key: string)
    ensures key <= field
    ensures '-' !in key
    ensures |key| == |field| || field[|key|] == '-'
  {
    if '-' in field then field[..FirstIndex(field, '-')] else field
  }

  /** The key is what `field.split('-').shift()` returns. */
  lemma KeyOfSplit(field: string)
    ensures KeyOf(field) == Split(field, '-')[0]
  {
  }

  /** The key of `geonameid-slug` is the geonameid, whatever the slug holds. */
  lemma KeyOfEntry(id: string, slug: string)
    requires '-' !in id
    ensures KeyOf(id + "-" + slug) == id
  {
    var field := id + "-" + slug;
    var key := KeyOf(field);
    assert field[|id|] == '-';
    assert key == field[..|key|] == id;
  }

  /** Lines 54-58: every field under its key, a later field overwriting an earlier one. */
  function Index(fields: seq<string>): (r: map<string, string>)
    ensures forall k :: k in r ==> r[k] in fields && KeyOf(r[k]) == k
  {
    if |fields| == 0 then map[]
    else
      var n := |fields| - 1;
      var prev := Index(fields[..n]);
      assert forall x :: x in fields[..n] ==> x in fields;
      prev[KeyOf(fields[n]) := fields[n]]
  }

  /** Some field has key `k`. */
  predicate HasKey(fields: seq<string>, k: string) {
    exists i :: 0 <= i < |fields| && KeyOf(fields[i]) == k
  }

  lemma HasKeySnoc(fields: seq<string>, k: string)
    requires |fields| > 0
    ensures HasKey(fields, k) <==> HasKey(fields[..|fields| - 1], k) || KeyOf(fields[|fields| - 1]) == k
  {
    var n := |fields| - 1;
    if HasKey(fields[..n], k) {
      var i :| 0 <= i < n && KeyOf(fields[..n][i]) == k;
      assert fields[..n][i] == fields[i];
    }
    if HasKey(fields, k) && KeyOf(fields[n]) != k {
      var i :| 0 <= i < |fields| && KeyOf(fields[i]) == k;
      assert fields[..n][i] == fields[i];
    }
  }

  /** The index has exactly the keys of the fields. */
  lemma {:induction false} IndexKeys(fields: seq<string>)
    ensures forall k :: k in Index(fields) <==> HasKey(fields, k)
  {
    if |fields| > 0 {
      var n := |fields| - 1;
      IndexKeys(fields[..n]);
      forall k
        ensures k in Index(fields) <==> HasKey(fields, k)
      {
        HasKeySnoc(fields, k);
      }
    }
  }

  /** A field no later field shares a key with is the value under its key. */
  lemma {:induction false} IndexLastWins(fields: seq<string>, i: nat)
    requires i < |fields|
    requires forall j :: i < j < |fields| ==> KeyOf(fields[j]) != KeyOf(fields[i])
    ensures KeyOf(fields[i]) in Index(fields)
    ensures Index(fields)[KeyOf(fields[i])] == fields[i]
  {
    var n := |fields| - 1;
    if i < n {
      forall j | i < j < n
        ensures KeyOf(fields[..n][j]) != KeyOf(fields[..n][i])
      {
        assert fields[..n][j] == fields[j];
      }
      IndexLastWins(fields[..n], i);
    }
  }

  /** Lines 43-58: the place index built from the front matter of all pages. */
  function PlaceIndex(pages: seq<FrontMatter>): (r: map<string, string>)
    ensures forall k :: k in r ==> KeyOf(r[k]) == k && r[k] in Collect(pages)
  {
    var fields := Dedup(Collect(pages));
    assert forall x :: x in fields ==> x in Collect(pages);
    Index(fields)
  }

  /** Some page names an entry with geonameid `k`. */
  predicate Named(pages: seq<FrontMatter>, k: string) {
    exists i :: 0 <= i < |pages| && exists x :: x in Entries(pages[i]) && KeyOf(x) == k
  }

  lemma KeyNamed(pages: seq<FrontMatter>, k: string)
    ensures HasKey(Dedup(Collect(pages)), k) ==> Named(pages, k)
  {
    if !HasKey(Dedup(Collect(pages)), k) {
      return;
    }
    var fields := Dedup(Collect(pages));
    var i :| 0 <= i < |fields| && KeyOf(fields[i]) == k;
    var x := fields[i];
    assert x in Collect(pages);
    var p :| 0 <= p < |pages| && x in Entries(pages[p]);
  }

  lemma NamedKey(pages: seq<FrontMatter>, k: string)
    requires Named(pages, k)
    ensures HasKey(Dedup(Collect(pages)), k)
  {
    var fields := Dedup(Collect(pages));
    var i :| 0 <= i < |pages| && exists x :: x in Entries(pages[i]) && KeyOf(x) == k;
    var x :| x in Entries(pages[i]) && KeyOf(x) == k;
    assert x in Collect(pages);
    assert x in fields;
    var j :| 0 <= j < |fields| && fields[j] == x;
  }

  /** The place index maps exactly the geonameids the pages name. */
  lemma PlaceIndexKeys(pages: seq<FrontMatter>)
    ensures forall k :: k in PlaceIndex(pages) <==> Named(pages, k)
  {
    IndexKeys(Dedup(Collect(pages)));
    forall k
      ensures k in PlaceIndex(pages) <==> Named(pages, k)
    {
      if k in PlaceIndex(pages) {
        KeyNamed(pages, k);
      }
      if Named(pages, k) {
        NamedKey(pages, k);
      }
    }
  }

  /** Every geonameid maps to an entry some page names, carrying that geonameid. */
  lemma PlaceIndexValues(pages: seq<FrontMatter>)
    ensures var r := PlaceIndex(pages);
      forall k :: k in r ==> KeyOf(r[k]) == k && exists i :: 0 <= i < |pages| && r[k] in Entries(pages[i])
  {
    var fields := Dedup(Collect(pages));
    assert forall x :: x in fields ==> x in Collect(pages);
  }

  /** An entry whose geonameid no other entry shares is the value under it. */
  lemma PlaceIndexUnique(pages: seq<FrontMatter>, x: string)
    requires x in Collect(pages)
    requires forall y :: y in Collect(pages) && KeyOf(y) == KeyOf(x) ==> y == x
    ensures KeyOf(x) in PlaceIndex(pages) && PlaceIndex(pages)[KeyOf(x)] == x
  {
    var all := Collect(pages);
    var fields := Dedup(all);
    assert x in fields;
    var i :| 0 <= i < |fields| && fields[i] == x;
    forall j | i < j < |fields|
      ensures KeyOf(fields[j]) != KeyOf(fields[i])
    {
      assert fields[j] in all;
      assert fields[j] != fields[i];
    }
    IndexLastWins(fields, i);
  }
}

=== FILE: polygon.dfy ===
/**
 * Boundary reduction (lib/polygon.js): ring decimation by tolerance, removal of
 * rings too short to be polygons, and the retry loop that shrinks the tolerance
 * until something survives.
 */
module Polygon {
  import opened Wrappers
  import opened Seqs
  import opened Geo

  /** Fewest points a ring may keep. */
  const MinSetLength: nat := 4
  /** Decimal places every point is rounded to before it is compared. */
  const Precision: nat := 1
  /** Tolerance of the first attempt, and the fallback for a missing or zero one. */
  const InitialTolerance: real := 0.4
  /** Each failed attempt divides the tolerance by this. */
  const ToleranceDivisor: real := 1.25

  /**
   * The rounding `round(position, precision)` that lib/coords.js provides;
   * that file is not part of this model, so every operation takes it as a parameter.
   */
  type Rounder = (Position, nat) -> Position

  /** `current` differs from `previous` by at least `t` in longitude or in latitude. */
  predicate Far(current: Position, previous: Position, t: real) {
    || current.lng >= previous.lng + t || current.lng <= previous.lng - t
    || current.lat >= previous.lat + t || current.lat <= previous.lat - t
  }

  /** Consecutive points differ by at least `t` in one coordinate. */
  predicate Spaced(ring: Ring, t: real) {
    forall i :: 0 <= i < |ring| - 1 ==> Far(ring[i + 1], ring[i], t)
  }

  /** The ring with every point rounded to `Precision`. */
  function RoundRing(ring: Ring, round: Rounder): (r: Ring)
    ensures |r| == |ring|
    ensures forall i :: 0 <= i < |ring| ==> r[i] == round(ring[i], Precision)
  {
    MapSeq(ring, p => round(p, Precision))
  }

  /** Lines 44-47: `current` is kept after `previous`, the last kept point, if any. */
  predicate Keeps(current: Position, previous: Option<Position>, t: real) {
    previous.None? || Far(current, previous.value, t)
  }

  /** The last point kept so far, or `last` when nothing has been kept. */
  function LastKept(kept: Ring, last: Option<Position>): Option<Position> {
    if |kept| == 0 then last else Some(kept[|kept| - 1])
  }

  /**
   * The sweep over rounded points, from the front: a point is kept when it
   * `Keeps` after `last`, and then becomes `last` for the rest.
   */
  function Sweep(pts: Ring, last: Option<Position>, t: real): (r: Ring)
    ensures IsSubsequence(r, pts)
    ensures last.None? && |pts| > 0 ==> |r| > 0 && r[0] == pts[0]
    ensures last.Some? && |r| > 0 ==> Far(r[0], last.value, t)
    ensures Spaced(r, t)
    ensures Spaced(pts, t) && (|pts| == 0 || Keeps(pts[0], last, t)) ==> r == pts
    decreases |pts|
  {
    if |pts| == 0 then []
    else if Keeps(pts[0], last, t) then
      var rest := Sweep(pts[1..], Some(pts[0]), t);
      assert ([pts[0]] + rest)[1..] == rest;
      assert Spaced(pts, t) ==> Spaced(pts[1..], t) by {
        if Spaced(pts, t) {
          forall i | 0 <= i < |pts[1..]| - 1
            ensures Far(pts[1..][i + 1], pts[1..][i], t)
          {
            assert Far(pts[i + 2], pts[i + 1], t);
          }
        }
      }
      [pts[0]] + rest
    else Sweep(pts[1..], last, t)
  }

  /**
   * Lines 42-52 as written: `set.reduce` pushes each point onto the
   * accumulator when it `Keeps` after the accumulator's last point.
   */
  function SweepFold(pts: Ring, last: Option<Position>, t: real): Ring
    decreases |pts|
  {
    if |pts| == 0 then []
    else
      var kept := SweepFold(pts[..|pts| - 1], last, t);
      var current := pts[|pts| - 1];
      if Keeps(current, LastKept(kept, last), t) then kept + [current] else kept
  }

  /**
   * One more point: it is appended exactly when it is far enough from the last
   * kept point, and a point that is not is dropped without any other change.
   */
  lemma {:induction false} SweepSnoc(pts: Ring, p: Position, last: Option<Position>, t: real)
    ensures var kept := Sweep(pts, last, t);
      Sweep(pts + [p], last, t) == kept + (if Keeps(p, LastKept(kept, last), t) then [p] else [])
    decreases |pts|
  {
    if |pts| == 0 {
      assert pts + [p] == [p];
    } else if Keeps(pts[0], last, t) {
      SweepSnoc(pts[1..], p, Some(pts[0]), t);
      SweepSnocKept(pts, p, last, t);
    } else {
      SweepSnoc(pts[1..], p, last, t);
      SweepSnocDropped(pts, p, last, t);
    }
  }

  /** The step of `SweepSnoc` when the first point is kept. */
  lemma SweepSnocKept(pts: Ring, p: Position, last: Option<Position>, t: real)
    requires |pts| > 0 && Keeps(pts[0], last, t)
    requires var kept := Sweep(pts[1..], Some(pts[0]), t);
      Sweep(pts[1..] + [p], Some(pts[0]), t) == kept + (if Keeps(p, LastKept(kept, Some(pts[0])), t) then [p] else [])
    ensures var kept := Sweep(pts, last, t);
      Sweep(pts + [p], last, t) == kept + (if Keeps(p, LastKept(kept, last), t) then [p] else [])
  {
    var q := pts + [p];
    assert q[0] == pts[0] && q[1..] == pts[1..] + [p];
    var rest := Sweep(pts[1..], Some(pts[0]), t);
    var extra := if Keeps(p, LastKept(rest, Some(pts[0])), t) then [p] else [];
    SweepKeptFirst(q, last, t);
    SweepKeptFirst(pts, last, t);
    LastKeptCons(pts[0], rest, last);
    ConsAppend(pts[0], rest, extra);
  }

  /** A kept first point heads the sweep. */
  lemma SweepKeptFirst(pts: Ring, last: Option<Position>, t: real)
    requires |pts| > 0 && Keeps(pts[0], last, t)
    ensures Sweep(pts, last, t) == [pts[0]] + Sweep(pts[1..], Some(pts[0]), t)
  {
  }

  lemma LastKeptCons(x: Position, kept: Ring, last: Option<Position>)
    ensures LastKept([x] + kept, last) == LastKept(kept, Some(x))
  {
  }

  lemma ConsAppend(x: Position, a: Ring, b: Ring)
    ensures [x] + (a + b) == ([x] + a) + b
  {
  }

  /** The step of `SweepSnoc` when the first point is dropped. */
  lemma SweepSnocDropped(pts: Ring, p: Position, last: Option<Position>, t: real)
    requires |pts| > 0 && !Keeps(pts[0], last, t)
    requires var kept := Sweep(pts[1..], last, t);
      Sweep(pts[1..] + [p], last, t) == kept + (if Keeps(p, LastKept(kept, last), t) then [p] else [])
    ensures var kept := Sweep(pts, last, t);
      Sweep(pts + [p], last, t) == kept + (if Keeps(p, LastKept(kept, last), t) then [p] else [])
  {
    var q := pts + [p];
    assert q[0] == pts[0];
    assert q[1..] == pts[1..] + [p];
  }

  /** The sweep from the front is the source's fold from the back. */
  lemma {:induction false} SweepIsFold(pts: Ring, last: Option<Position>, t: real)
    ensures SweepFold(pts, last, t) == Sweep(pts, last, t)
    decreases |pts|
  {
    if |pts| > 0 {
      var n := |pts| - 1;
      var init := pts[..n];
      assert pts == init + [pts[n]];
      SweepIsFold(init, last, t);
      SweepSnoc(init, pts[n], last, t);
    }
  }

  /** One ring after rounding and decimation at tolerance `t`. */
  function DecimateRing(ring: Ring, t: real, round: Rounder): (r: Ring)
    ensures IsSubsequence(r, RoundRing(ring, round))
    ensures |ring| > 0 ==> |r| > 0 && r[0] == round(ring[0], Precision)
    ensures Spaced(r, t)
    ensures r == SweepFold(RoundRing(ring, round), None, t)
  {
    SweepIsFold(RoundRing(ring, round), None, t);
    Sweep(RoundRing(ring, round), None, t)
  }

  /** `tolerance || TOLERANCE`: a missing or zero tolerance means the initial one. */
  function EffectiveTolerance(tolerance: Option<real>): (t: real)
    ensures tolerance.None? || tolerance.value == 0.0 ==> t == InitialTolerance
    ensures tolerance.Some? && tolerance.value != 0.0 ==> t == tolerance.value
  {
    if tolerance.None? || tolerance.value == 0.0 then InitialTolerance else tolerance.value
  }

  /** A ring long enough to stay. */
  predicate LongEnough(ring: Ring) {
    |ring| >= MinSetLength
  }

  /** The rings of `polygon` after rounding and decimation at tolerance `t`. */
  function DecimateAll(polygon: seq<Ring>, t: real, round: Rounder): (r: seq<Ring>)
    ensures |r| == |polygon|
    ensures forall i :: 0 <= i < |polygon| ==> r[i] == DecimateRing(polygon[i], t, round)
  {
    MapSeq(polygon, ring => DecimateRing(ring, t, round))
  }

  /** `reducePolygon`: decimate every ring, then drop the rings that became too short. */
  function ReducePolygon(polygon: seq<Ring>, tolerance: Option<real>, round: Rounder): (r: seq<Ring>)
    ensures |r| <= |polygon|
    ensures forall k :: 0 <= k < |r| ==> LongEnough(r[k])
  {
    var decimated := DecimateAll(polygon, EffectiveTolerance(tolerance), round);
    var r := Filter(decimated, LongEnough);
    SubsequenceLength(r, decimated);
    r
  }

  /**
   * What `reducePolygon` keeps: exactly the long enough decimated rings, each as
   * often as it occurs, in their original order.
   */
  lemma ReducePolygonKeeps(polygon: seq<Ring>, tolerance: Option<real>, round: Rounder)
    ensures var r := ReducePolygon(polygon, tolerance, round);
      var decimated := DecimateAll(polygon, EffectiveTolerance(tolerance), round);
      && IsSubsequence(r, decimated)
      && (forall i :: 0 <= i < |polygon| && LongEnough(decimated[i]) ==> decimated[i] in r)
      && CountsKept(r, decimated, LongEnough)
  {
    FilterCounts(DecimateAll(polygon, EffectiveTolerance(tolerance), round), LongEnough);
  }

  /**
   * Every kept ring is a thinned-out copy of one rounded input ring that
   * starts at that ring's rounded first point.
   */
  lemma ReducePolygonSpec(polygon: seq<Ring>, tolerance: Option<real>, round: Rounder)
    ensures var r := ReducePolygon(polygon, tolerance, round);
      forall k :: 0 <= k < |r| ==>
        && |r[k]| > 0
        && exists i :: && 0 <= i < |polygon| && |polygon[i]| > 0
                       && IsSubsequence(r[k], RoundRing(polygon[i], round))
                       && r[k][0] == round(polygon[i][0], Precision)
                       && Spaced(r[k], EffectiveTolerance(tolerance))
  {
    var t := EffectiveTolerance(tolerance);
    var r := ReducePolygon(polygon, tolerance, round);
    var decimated := DecimateAll(polygon, t, round);
    SubsequenceMembers(r, decimated);
    forall k | 0 <= k < |r|
      ensures exists i :: && 0 <= i < |polygon| && |polygon[i]| > 0
                          && IsSubsequence(r[k], RoundRing(polygon[i], round))
                          && r[k][0] == round(polygon[i][0], Precision)
                          && Spaced(r[k], t)
    {
      assert r[k] in decimated;
      var i :| 0 <= i < |decimated| && decimated[i] == r[k];
      assert |polygon[i]| > 0;
    }
  }

  /** The tolerance of attempt `k` of the `do … while` loop. */
  function Tolerance(k: nat): real {
    if k == 0 then InitialTolerance else Tolerance(k - 1) / ToleranceDivisor
  }

  /** `b^k`. */
  function Power(b: real, k: nat): real {
    if k == 0 then 1.0 else b * Power(b, k - 1)
  }

  /** Attempt `k` runs at `0.4 / 1.25^k`. */
  lemma {:induction false} ToleranceClosedForm(k: nat)
    ensures Power(ToleranceDivisor, k) >= 1.0
    ensures Tolerance(k) == InitialTolerance / Power(ToleranceDivisor, k)
  {
    if k > 0 {
      ToleranceClosedForm(k - 1);
      var p := Power(ToleranceDivisor, k - 1);
      assert Tolerance(k) == (InitialTolerance / p) / ToleranceDivisor;
      assert Power(ToleranceDivisor, k) == ToleranceDivisor * p;
      DivDiv(InitialTolerance, p, ToleranceDivisor);
    }
  }

  lemma DivDiv(a: real, p: real, q: real)
    requires p > 0.0 && q > 0.0
    ensures (a / p) / q == a / (q * p)
  {
  }

  /** Every attempt has a positive tolerance, smaller than the one before. */
  lemma {:induction false} ToleranceDecreasing(i: nat, j: nat)
    requires i < j
    ensures 0.0 < Tolerance(j) < Tolerance(i)
    decreases j
  {
    TolerancePositive(j);
    if i < j - 1 {
      ToleranceDecreasing(i, j - 1);
    }
  }

  lemma {:induction false} TolerancePositive(k: nat)
    ensures 0.0 < Tolerance(k) <= InitialTolerance
  {
    if k > 0 {
      TolerancePositive(k - 1);
    }
  }

  /** A polygon that still has a ring. */
  predicate NotEmpty(polygon: seq<Ring>) {
    |polygon| != 0
  }

  /** Every ring of the shape keeps at least `MinSetLength` points. */
  predicate AllRingsLong(shape: Surface) {
    match shape
    case Polygon(rings) => forall i :: 0 <= i < |rings| ==> LongEnough(rings[i])
    case MultiPolygon(polygons) =>
      forall i, j :: 0 <= i < |polygons| && 0 <= j < |polygons[i]| ==> LongEnough(polygons[i][j])
  }

  /** Every polygon of a MultiPolygon through `reducePolygon` at tolerance `t`. */
  function ReduceEach(polygons: seq<seq<Ring>>, t: real, round: Rounder): (r: seq<seq<Ring>>)
    ensures |r| == |polygons|
    ensures forall i :: 0 <= i < |polygons| ==> r[i] == ReducePolygon(polygons[i], Some(t), round)
  {
    MapSeq(polygons, polygon => ReducePolygon(polygon, Some(t), round))
  }

  /**
   * Lines 78-83 at attempt `k`: a Polygon's rings through `reducePolygon`; for a
   * MultiPolygon, exactly the non-empty reduced polygons, each as often as it
   * occurs, in order.
   */
  ghost predicate ReducedAt(shape: Surface, k: nat, round: Rounder, r: Surface) {
    match shape
    case Polygon(rings) => r == Polygon(ReducePolygon(rings, Some(Tolerance(k)), round))
    case MultiPolygon(polygons) =>
      var reduced := ReduceEach(polygons, Tolerance(k), round);
      && r.MultiPolygon?
      && IsSubsequence(r.polygons, reduced)
      && (forall i :: 0 <= i < |reduced| && NotEmpty(reduced[i]) ==> reduced[i] in r.polygons)
      && CountsKept(r.polygons, reduced, NotEmpty)
  }

  /** The coordinates computed by attempt `k` of the loop body. */
  function Attempt(shape: Surface, k: nat, round: Rounder): (r: Surface)
    ensures r.Polygon? <==> shape.Polygon?
    ensures r.Size() <= shape.Size()
    ensures r.MultiPolygon? ==> forall i :: 0 <= i < |r.polygons| ==> NotEmpty(r.polygons[i])
    ensures AllRingsLong(r)
    ensures ReducedAt(shape, k, round, r)
  {
    var t := Tolerance(k);
    match shape
    case Polygon(rings) => Polygon(ReducePolygon(rings, Some(t), round))
    case MultiPolygon(polygons) =>
      var reduced := ReduceEach(polygons, t, round);
      var kept := Filter(reduced, NotEmpty);
      FilterCounts(reduced, NotEmpty);
      SubsequenceLength(kept, reduced);
      SubsequenceMembers(kept, reduced);
      assert forall i, j :: 0 <= i < |kept| && 0 <= j < |kept[i]| ==> LongEnough(kept[i][j]) by {
        forall i, j | 0 <= i < |kept| && 0 <= j < |kept[i]|
          ensures LongEnough(kept[i][j])
        {
          assert kept[i] in reduced;
        }
      }
      MultiPolygon(kept)
  }

  /**
   * The first attempt among `k`, …, `k + fuel - 1` that `survives`: the
   * `do … while(0 === coords.length)` loop, cut off after `fuel` rounds.
   */
  function FirstSurvivor(survives: nat -> bool, k: nat, fuel: nat): (r: Option<nat>)
    ensures r.Some? ==> && k <= r.value < k + fuel
                        && survives(r.value)
                        && forall j :: k <= j < r.value ==> !survives(j)
    ensures r.None? ==> forall j :: k <= j < k + fuel ==> !survives(j)
    decreases fuel
  {
    if fuel == 0 then None
    else if survives(k) then Some(k)
    else FirstSurvivor(survives, k + 1, fuel - 1)
  }

  /** Attempt `k` leaves some coordinates. */
  function Survives(shape: Surface, round: Rounder): nat -> bool {
    (k: nat) => Attempt(shape, k, round).Size() != 0
  }

  /** Lines 89-94: a MultiPolygon with one surviving polygon becomes a Polygon. */
  function Simplify(shape: Surface, coords: Surface): (r: Surface)
    requires coords.Polygon? <==> shape.Polygon?
    ensures shape.Polygon? ==> r == coords
    ensures shape.MultiPolygon? && coords.Size() == 1 ==> r == Polygon(coords.polygons[0])
    ensures shape.MultiPolygon? && coords.Size() != 1 ==> r == coords
  {
    if shape.MultiPolygon? && coords.Size() == 1 then Polygon(coords.polygons[0]) else coords
  }

  /**
   * `reduce`, with at most `fuel` rounds of the loop; `None` stands for a loop
   * that has not produced anything after `fuel` rounds.
   */
  function Reduce(shape: Surface, round: Rounder, fuel: nat): (r: Option<Surface>)
    ensures r.Some? ==> r.value.Size() != 0 && AllRingsLong(r.value)
    ensures r.Some? && r.value.MultiPolygon? ==>
      && r.value.Size() >= 2
      && forall i :: 0 <= i < |r.value.polygons| ==> NotEmpty(r.value.polygons[i])
    ensures r.Some? && shape.Polygon? ==> r.value.Polygon?
    ensures r.Some? ==>
      exists k :: && 0 <= k < fuel
                  && Survives(shape, round)(k)
                  && (forall j :: 0 <= j < k ==> !Survives(shape, round)(j))
                  && r.value == Simplify(shape, Attempt(shape, k, round))
    ensures r.None? <==> forall k :: 0 <= k < fuel ==> !Survives(shape, round)(k)
  {
    match FirstSurvivor(Survives(shape, round), 0, fuel)
    case None => None
    case Some(k) =>
      var coords := Attempt(shape, k, round);
      var r := Simplify(shape, coords);
      assert shape.MultiPolygon? && coords.Size() == 1 ==> LongEnough(coords.polygons[0][0]);
      Some(r)
  }

  /** More rounds change nothing once the loop has stopped. */
  lemma {:induction false} FirstSurvivorFuel(survives: nat -> bool, k: nat, fuel: nat, more: nat)
    requires FirstSurvivor(survives, k, fuel).Some?
    requires fuel <= more
    ensures FirstSurvivor(survives, k, more) == FirstSurvivor(survives, k, fuel)
    decreases fuel
  {
    if !survives(k) {
      FirstSurvivorFuel(survives, k + 1, fuel - 1, more - 1);
    }
  }

  /** The fuel only bounds the loop: a result, once reached, is the result for any larger fuel. */
  lemma ReduceFuelMonotone(shape: Surface, round: Rounder, fuel: nat, more: nat)
    requires fuel <= more
    ensures Reduce(shape, round, fuel).Some? ==> Reduce(shape, round, more) == Reduce(shape, round, fuel)
  {
    if Reduce(shape, round, fuel).Some? {
      FirstSurvivorFuel(Survives(shape, round), 0, fuel, more);
    }
  }

  // ---------------------------------------------------------------------------
  // When does the loop stop?
  // ---------------------------------------------------------------------------

  /** The points with every repetition of the point before it removed. */
  function Collapse(pts: Ring, last: Option<Position>): (r: Ring)
    ensures IsSubsequence(r, pts)
    decreases |pts|
  {
    if |pts| == 0 then []
    else if last.None? || pts[0] != last.value then
      var rest := Collapse(pts[1..], Some(pts[0]));
      assert ([pts[0]] + rest)[1..] == rest;
      [pts[0]] + rest
    else Collapse(pts[1..], last)
  }

  /** The ring still has `MinSetLength` points once rounded and freed of repeated points. */
  predicate Survivable(ring: Ring, round: Rounder) {
    |Collapse(RoundRing(ring, round), None)| >= MinSetLength
  }

  /** Some ring of the shape is `Survivable`. */
  predicate HasSurvivableRing(shape: Surface, round: Rounder) {
    match shape
    case Polygon(rings) => exists i :: 0 <= i < |rings| && Survivable(rings[i], round)
    case MultiPolygon(polygons) =>
      exists i, j :: 0 <= i < |polygons| && 0 <= j < |polygons[i]| && Survivable(polygons[i][j], round)
  }

  /**
   * With a positive tolerance the sweep keeps at most one point of every run of
   * equal points. `sLast` is the sweep's last kept point, `cLast` the point
   * before `pts`; when both exist, `cLast` would not have been kept after `sLast`.
   */
  lemma {:induction false} SweepAtMostCollapse(pts: Ring, sLast: Option<Position>, cLast: Option<Position>, t: real)
    requires t > 0.0
    requires sLast.Some? <==> cLast.Some?
    requires sLast.Some? ==> cLast.value == sLast.value || !Far(cLast.value, sLast.value, t)
    ensures |Sweep(pts, sLast, t)| <= |Collapse(pts, cLast)|
    decreases |pts|
  {
    if |pts| > 0 {
      var x := pts[0];
      var sweepKeeps := sLast.None? || Far(x, sLast.value, t);
      var collapseKeeps := cLast.None? || x != cLast.value;
      if sweepKeeps {
        SweepAtMostCollapse(pts[1..], Some(x), Some(x), t);
      } else if collapseKeeps {
        SweepAtMostCollapse(pts[1..], sLast, Some(x), t);
      } else {
        SweepAtMostCollapse(pts[1..], sLast, cLast, t);
      }
    }
  }

  /** Largest coordinate difference between two points. */
  function Gap(a: Position, b: Position): (g: real)
    ensures g >= 0.0
    ensures a != b ==> g > 0.0
  {
    var dLng := if a.lng >= b.lng then a.lng - b.lng else b.lng - a.lng;
    var dLat := if a.lat >= b.lat then a.lat - b.lat else b.lat - a.lat;
    if dLng >= dLat then dLng else dLat
  }

  lemma FarWithinGap(c: Position, p: Position, t: real)
    requires 0.0 < t <= Gap(c, p)
    ensures Far(c, p, t)
  {
  }

  /** A positive tolerance no larger than the gap of `c` to any other point of `pts`. */
  function SeparationFrom(c: Position, pts: Ring): (r: real)
    ensures r > 0.0
    ensures forall y :: y in pts && y != c ==> r <= Gap(c, y)
    decreases |pts|
  {
    if |pts| == 0 then 1.0
    else
      var rest := SeparationFrom(c, pts[1..]);
      var r := if pts[0] == c || rest <= Gap(c, pts[0]) then rest else Gap(c, pts[0]);
      assert forall y :: y in pts ==> y == pts[0] || y in pts[1..];
      r
  }

  /** A positive tolerance no larger than the gap between any two different points of `pts`. */
  function Separation(pts: Ring): (r: real)
    ensures r > 0.0
    ensures forall x, y :: x in pts && y in pts && x != y ==> r <= Gap(x, y)
    decreases |pts|
  {
    if |pts| == 0 then 1.0
    else
      var rest := Separation(pts[1..]);
      var head := SeparationFrom(pts[0], pts[1..]);
      var r := if rest <= head then rest else head;
      assert forall y :: y in pts ==> y == pts[0] || y in pts[1..];
      r
  }

  /** Below every gap of the ring, the sweep drops exactly the repeated points. */
  lemma {:induction false} SweepIsCollapse(pts: Ring, last: Option<Position>, t: real, all: Ring)
    requires 0.0 < t <= Separation(all)
    requires forall i :: 0 <= i < |pts| ==> pts[i] in all
    requires last.Some? ==> last.value in all
    ensures Sweep(pts, last, t) == Collapse(pts, last)
    decreases |pts|
  {
    if |pts| > 0 {
      var x := pts[0];
      if last.Some? && x != last.value {
        FarWithinGap(x, last.value, t);
      }
      assert forall i :: 0 <= i < |pts[1..]| ==> pts[1..][i] in all by {
        forall i | 0 <= i < |pts[1..]|
          ensures pts[1..][i] in all
        {
          assert pts[1..][i] == pts[i + 1];
        }
      }
      if last.None? || x != last.value {
        SweepIsCollapse(pts[1..], Some(x), t, all);
      } else {
        SweepIsCollapse(pts[1..], last, t, all);
      }
    }
  }

  /** The tolerance falls like `1.6 / (4 + k)` or faster. */
  lemma {:induction false} ToleranceBound(k: nat)
    ensures Tolerance(k) * (4.0 + k as real) <= 1.6
  {
    TolerancePositive(k);
    if k > 0 {
      ToleranceBound(k - 1);
      var a := Tolerance(k);
      var n := 3.0 + k as real;
      TolerancePositive(k - 1);
      assert Tolerance(k - 1) == a * 1.25;
      assert a * n * 1.25 <= 1.6 by {
        assert Tolerance(k - 1) * n == a * n * 1.25;
      }
      assert a <= 0.32;
      assert a * (n + 1.0) == a * n + a;
    }
  }

  lemma DivCancel(a: real, p: real)
    requires p > 0.0
    ensures (a / p) * p == a
  {
  }

  lemma Chain(a: real, b: real, c: real)
    requires a < b <= c
    ensures a < c
  {
  }

  lemma MulLess(a: real, b: real, c: real)
    requires a < b && c > 0.0
    ensures a * c < b * c
  {
  }

  /** Every positive bound is eventually undercut by the tolerance. */
  lemma ToleranceEventuallyBelow(eps: real) returns (k: nat)
    requires eps > 0.0
    ensures Tolerance(k) <= eps
  {
    var q := 1.6 / eps;
    assert q > 0.0;
    k := q.Floor as nat;
    var n := 4.0 + k as real;
    assert n > q;
    ToleranceBound(k);
    var t := Tolerance(k);
    assert t * n <= 1.6;
    if t > eps {
      MulLess(eps, t, n);
      MulLess(q, n, eps);
      DivCancel(1.6, eps);
      Chain(eps * n, t * n, 1.6);
      assert false;
    }
  }

  /** A ring that is not `Survivable` is too short after decimation at every positive tolerance. */
  lemma RingNeverLong(ring: Ring, t: real, round: Rounder)
    requires t > 0.0
    requires !Survivable(ring, round)
    ensures !LongEnough(DecimateRing(ring, t, round))
  {
    SweepAtMostCollapse(RoundRing(ring, round), None, None, t);
  }

  /** A `Survivable` ring is long enough after decimation at the tolerance of some attempt. */
  lemma RingEventuallyLong(ring: Ring, round: Rounder) returns (k: nat)
    requires Survivable(ring, round)
    ensures LongEnough(DecimateRing(ring, Tolerance(k), round))
  {
    var pts := RoundRing(ring, round);
    k := ToleranceEventuallyBelow(Separation(pts));
    TolerancePositive(k);
    SweepIsCollapse(pts, None, Tolerance(k), pts);
  }

  /** With no `Survivable` ring, `reducePolygon` at a positive tolerance keeps nothing. */
  lemma PolygonEmptied(polygon: seq<Ring>, t: real, round: Rounder)
    requires t > 0.0
    requires forall i :: 0 <= i < |polygon| ==> !Survivable(polygon[i], round)
    ensures ReducePolygon(polygon, Some(t), round) == []
  {
    var r := ReducePolygon(polygon, Some(t), round);
    var decimated := DecimateAll(polygon, t, round);
    ReducePolygonKeeps(polygon, Some(t), round);
    SubsequenceMembers(r, decimated);
    if |r| > 0 {
      assert r[0] in decimated;
      var i :| 0 <= i < |decimated| && decimated[i] == r[0];
      RingNeverLong(polygon[i], t, round);
      assert false;
    }
  }

  /** A ring long enough after decimation keeps the polygon non-empty. */
  lemma PolygonKept(polygon: seq<Ring>, i: nat, k: nat, round: Rounder)
    requires i < |polygon|
    requires LongEnough(DecimateRing(polygon[i], Tolerance(k), round))
    ensures |ReducePolygon(polygon, Some(Tolerance(k)), round)| > 0
  {
    TolerancePositive(k);
    ReducePolygonKeeps(polygon, Some(Tolerance(k)), round);
  }

  /** A shape with a `Survivable` ring leaves the loop after finitely many rounds. */
  lemma ReduceStopsWhenSurvivable(shape: Surface, round: Rounder) returns (fuel: nat)
    requires HasSurvivableRing(shape, round)
    ensures Reduce(shape, round, fuel).Some?
  {
    var k: nat;
    match shape {
      case Polygon(rings) =>
        var i :| 0 <= i < |rings| && Survivable(rings[i], round);
        k := RingEventuallyLong(rings[i], round);
        PolygonKept(rings, i, k, round);
      case MultiPolygon(polygons) =>
        var i, j :| 0 <= i < |polygons| && 0 <= j < |polygons[i]| && Survivable(polygons[i][j], round);
        k := RingEventuallyLong(polygons[i][j], round);
        PolygonKept(polygons[i], j, k, round);
        var reduced := ReduceEach(polygons, Tolerance(k), round);
        assert NotEmpty(reduced[i]);
        assert reduced[i] in Filter(reduced, NotEmpty);
    }
    assert Survives(shape, round)(k);
    fuel := k + 1;
  }

  /** Without a `Survivable` ring every attempt leaves no coordinates. */
  lemma AttemptEmptied(shape: Surface, k: nat, round: Rounder)
    requires !HasSurvivableRing(shape, round)
    ensures Attempt(shape, k, round).Size() == 0
  {
    var t := Tolerance(k);
    TolerancePositive(k);
    match shape {
      case Polygon(rings) =>
        PolygonEmptied(rings, t, round);
      case MultiPolygon(polygons) =>
        var reduced := ReduceEach(polygons, t, round);
        forall i | 0 <= i < |polygons|
          ensures !NotEmpty(reduced[i])
        {
          PolygonEmptied(polygons[i], t, round);
        }
        NoneKept(reduced);
    }
  }

  lemma NoneKept(reduced: seq<seq<Ring>>)
    requires forall i :: 0 <= i < |reduced| ==> !NotEmpty(reduced[i])
    ensures Filter(reduced, NotEmpty) == []
  {
    var kept := Filter(reduced, NotEmpty);
    SubsequenceMembers(kept, reduced);
  }

  /** With exact arithmetic, a shape without a `Survivable` ring does not leave the loop within any fuel. */
  lemma ReduceRunsOnWhenNotSurvivable(shape: Surface, round: Rounder, fuel: nat)
    requires !HasSurvivableRing(shape, round)
    ensures Reduce(shape, round, fuel).None?
  {
    forall k: nat | k < fuel
      ensures !Survives(shape, round)(k)
    {
      AttemptEmptied(shape, k, round);
    }
  }

  /**
   * With exact arithmetic, the `do … while` loop stops exactly when some ring
   * still has `MinSetLength` points after rounding and removal of repeated
   * points; otherwise no fuel is enough.
   */
  lemma ReduceTerminates(shape: Surface, round: Rounder)
    ensures (exists fuel: nat :: Reduce(shape, round, fuel).Some?) <==> HasSurvivableRing(shape, round)
  {
    if HasSurvivableRing(shape, round) {
      var fuel := ReduceStopsWhenSurvivable(shape, round);
    } else {
      forall fuel: nat
        ensures Reduce(shape, round, fuel).None?
      {
        ReduceRunsOnWhenNotSurvivable(shape, round, fuel);
      }
    }
  }
}

=== FILE: seqs.dfy ===
/** Sequence facts used by every list-processing step of the pipeline. */
module Seqs {

  /** `a` is obtained from `b` by deleting zero or more elements. */
  predicate IsSubsequence<T(==)>(a: seq<T>, b: seq<T>)
    decreases |b|
  {
    || |a| == 0
    || (&& |b| > 0
        && ((a[0] == b[0] && IsSubsequence(a[1..], b[1..])) || IsSubsequence(a, b[1..])))
  }

  /** No element occurs twice. */
  predicate NoDuplicates<T(==)>(s: seq<T>) {
    forall i, j :: 0 <= i < j < |s| ==> s[i] != s[j]
  }

  lemma SubsequenceRefl<T>(s: seq<T>)
    ensures IsSubsequence(s, s)
  {
    if |s| > 0 {
      SubsequenceRefl(s[1..]);
    }
  }

  lemma {:induction false} SubsequenceLength<T>(a: seq<T>, b: seq<T>)
    requires IsSubsequence(a, b)
    ensures |a| <= |b|
    decreases |b|
  {
    if |a| > 0 {
      if a[0] == b[0] && IsSubsequence(a[1..], b[1..]) {
        SubsequenceLength(a[1..], b[1..]);
      } else {
        SubsequenceLength(a, b[1..]);
      }
    }
  }

  /** Every element kept by a deletion was in the original. */
  lemma {:induction false} SubsequenceMembers<T>(a: seq<T>, b: seq<T>)
    requires IsSubsequence(a, b)
    ensures forall x :: x in a ==> x in b
    decreases |b|
  {
    if |a| > 0 {
      if a[0] == b[0] && IsSubsequence(a[1..], b[1..]) {
        SubsequenceMembers(a[1..], b[1..]);
        forall x | x in a
          ensures x in b
        {
          if x != a[0] {
            assert x in a[1..];
          }
        }
      } else {
        SubsequenceMembers(a, b[1..]);
      }
    }
  }

  /** `r` holds every element of `s` satisfying `p` as often as `s` does, and nothing else. */
  ghost predicate CountsKept<T(!new)>(r: seq<T>, s: seq<T>, p: T -> bool) {
    forall x :: multiset(r)[x] == if p(x) then multiset(s)[x] else 0
  }

  /** The elements of `s` satisfying `p`, in their original order. */
  function Filter<T>(s: seq<T>, p: T -> bool): (r: seq<T>)
    ensures IsSubsequence(r, s)
    ensures forall i :: 0 <= i < |r| ==> p(r[i])
    ensures forall i :: 0 <= i < |s| && p(s[i]) ==> s[i] in r
  {
    if |s| == 0 then []
    else if p(s[0]) then [s[0]] + Filter(s[1..], p)
    else Filter(s[1..], p)
  }

  /** The filter keeps every satisfying element as often as it occurs, and nothing else. */
  lemma {:induction false} FilterCounts<T(!new)>(s: seq<T>, p: T -> bool)
    ensures CountsKept(Filter(s, p), s, p)
  {
    if |s| > 0 {
      FilterCounts(s[1..], p);
      assert s == [s[0]] + s[1..];
    }
  }

  /** Filtering a concatenation filters each part. */
  lemma {:induction false} FilterAppend<T(!new)>(a: seq<T>, b: seq<T>, p: T -> bool)
    ensures Filter(a + b, p) == Filter(a, p) + Filter(b, p)
    decreases |a|
  {
    if |a| > 0 {
      assert (a + b)[1..] == a[1..] + b;
      FilterAppend(a[1..], b, p);
    } else {
      assert a + b == b;
    }
  }

  /** Applying `f` to every element. */
  function MapSeq<T, U>(s: seq<T>, f: T -> U): (r: seq<U>)
    ensures |r| == |s|
    ensures forall i :: 0 <= i < |s| ==> r[i] == f(s[i])
  {
    if |s| == 0 then [] else [f(s[0])] + MapSeq(s[1..], f)
  }

  /** Mapping a concatenation maps each part. */
  lemma MapSeqAppend<T, U>(a: seq<T>, b: seq<T>, f: T -> U)
    ensures MapSeq(a + b, f) == MapSeq(a, f) + MapSeq(b, f)
  {
    var r := MapSeq(a + b, f);
    assert forall i :: 0 <= i < |a| ==> r[i] == f(a[i]) by {
      forall i | 0 <= i < |a|
        ensures r[i] == f(a[i])
      {
        assert (a + b)[i] == a[i];
      }
    }
    assert forall i :: |a| <= i < |a| + |b| ==> r[i] == f(b[i - |a|]) by {
      forall i | |a| <= i < |a| + |b|
        ensures r[i] == f(b[i - |a|])
      {
        assert (a + b)[i] == b[i - |a|];
      }
    }
  }
}

=== FILE: strings.dfy ===
/** The JavaScript string operations the pipeline relies on. */
module Strings {

  /** Position of the first occurrence of `c` in `s`. */
  function FirstIndex(s: string, c: char): (i: nat)
    requires c in s
    ensures i < |s| && s[i] == c && c !in s[..i]
  {
    if s[0] == c then 0
    else
      assert c in s[1..];
      1 + FirstIndex(s[1..], c)
  }

  /** `String.prototype.join` with a one-character separator. */
  function Join(parts: seq<string>, sep: char): string {
    if |parts| == 0 then ""
    else if |parts| == 1 then parts[0]
    else parts[0] + [sep] + Join(parts[1..], sep)
  }

  /** `String.prototype.split` with a one-character separator. */
  function Split(s: string, sep: char): (parts: seq<string>)
    ensures |parts| >= 1
    ensures forall i :: 0 <= i < |parts| ==> sep !in parts[i]
    ensures Join(parts, sep) == s
    ensures |parts| == 1 <==> sep !in s
    ensures parts[0] <= s && (|parts[0]| == |s| || s[|parts[0]|] == sep)
    decreases |s|
  {
    if sep !in s then [s]
    else
      var i := FirstIndex(s, sep);
      var rest := Split(s[i + 1..], sep);
      assert s == s[..i] + [sep] + s[i + 1..];
      [s[..i]] + rest
  }

  /** Splitting a join recovers the parts, as long as no part holds the separator. */
  lemma {:induction false} SplitJoin(parts: seq<string>, sep: char)
    requires |parts| >= 1
    requires forall i :: 0 <= i < |parts| ==> sep !in parts[i]
    ensures Split(Join(parts, sep), sep) == parts
    decreases |parts|
  {
    if |parts| == 1 {
    } else {
      var s := Join(parts, sep);
      var p := parts[0];
      var tail := Join(parts[1..], sep);
      assert s == p + [sep] + tail;
      assert s[|p|] == sep;
      assert s[..|p|] == p;
      assert sep in s;
      var i := FirstIndex(s, sep);
      assert i == |p|;
      assert s[i + 1..] == tail;
      SplitJoin(parts[1..], sep);
    }
  }

  /** `s.substr(0, n)`: at most the first `n` characters. */
  function Take(s: string, n: nat): (r: string)
    ensures r <= s
    ensures |r| == if |s| < n then |s| else n
  {
    if |s| <= n then s else s[..n]
  }

  /** Ordering of JavaScript's `<=` on strings, character by character. */
  predicate LexLessEq(a: string, b: string)
    decreases |a|
  {
    || |a| == 0
    || (&& |b| > 0
        && (a[0] < b[0] || (a[0] == b[0] && LexLessEq(a[1..], b[1..]))))
  }

  lemma {:induction false} LexLessEqTotal(a: string, b: string)
    ensures LexLessEq(a, b) || LexLessEq(b, a)
    decreases |a|
  {
    if |a| > 0 && |b| > 0 && a[0] == b[0] {
      LexLessEqTotal(a[1..], b[1..]);
    }
  }

  lemma {:induction false} LexLessEqTrans(a: string, b: string, c: string)
    requires LexLessEq(a, b) && LexLessEq(b, c)
    ensures LexLessEq(a, c)
    decreases |a|
  {
    if |a| > 0 && a[0] == b[0] && b[0] == c[0] {
      LexLessEqTrans(a[1..], b[1..], c[1..]);
    }
  }
}

=== FILE: transform.dfy ===
/**
 * The record-to-feature joins (lib/transform.js): cities, continents and
 * countries become GeoJSON features sorted by name, and the custom continents
 * are completed from their configuration entries.
 */
module Transform {
  import opened Wrappers
  import opened Seqs
  import opened Strings
  import opened Lodash
  import opened Geo
  import opened Format
  import opened Polygon

  // ---------------------------------------------------------------------------
  // Records
  // ---------------------------------------------------------------------------

  /** Where lib/transform.js throws a `TypeError` on a missing record, or where the model's reduction loop runs out of fuel. */
  datatype Error =
    | NoCountry(city: string)            // line 57: `country.code` on `null`
    | NoContinent(country: string)       // line 95: `properties.continent.code` on `null`
    | NoBox(continent: string)           // line 124: `format.bbox(undefined)`
    | NoConfig(continent: string)        // line 246: `data.code` on `undefined`
    | NoCountryCodes(continent: string)  // line 249: `continent.cc2.split` on `undefined`
    | ShapeNotReduced(country: string)   // line 202: the reduction loop does not stop within the fuel

  /** The services the transforms call but that are not modelled: `slug`, `./coords`, and a bound on the reduction loop. */
  datatype Services = Services(slugify: string -> string, round: Rounder, fuel: nat)

  /** `{ code, slug, name }`: how a feature names a country, continent or neighbour. */
  datatype Ref = Ref(code: string, slug: string, name: string)

  /** A language of a country: `{ code, name }`. */
  datatype LanguageRef = LanguageRef(code: string, name: string)

  /** A currency of a country: `{ code, name }`. */
  datatype Currency = Currency(code: string, name: string)

  /** A row of the geonames city table. */
  datatype CityRecord = CityRecord(
    geonameid: string, name: string, admin1: string, countryCode: string,
    timezone: string, population: real, longitude: real, latitude: real)

  /** A row of the geonames country table. */
  datatype CountryRecord = CountryRecord(
    geonameid: string, iso2: string, name: string, continent: string,
    languages: string, neighbours: string, area: real, capital: Option<string>,
    currencyCode: string, currencyName: string, population: real)

  /**
   * A continent record, from geonames or completed by `transformCustom`; `cc`
   * lists the member country codes of a custom continent, `cc2` is the
   * comma-separated form some source records carry.
   */
  datatype Continent = Continent(
    geonameId: string, continentCode: string, name: string, population: real,
    timezone: Option<TimezoneRecord>, lng: real, lat: real, bbox: Option<Box>,
    cc: Option<seq<string>>, cc2: Option<string>)

  /** A record of the geonames country API: coordinates, box and timezone are optional. */
  datatype ApiCountry = ApiCountry(
    geonameId: string, lng: Option<real>, lat: Option<real>, bbox: Option<Box>,
    timezone: Option<TimezoneRecord>, toponymName: Option<string>)

  /** A row of the language table: its `ISO 639-1` code and `Language Name`. */
  datatype Language = Language(iso6391: string, name: string)

  /** A row of the country table that neighbours are resolved against. */
  datatype SrcCountry = SrcCountry(iso2: string, name: string)

  /** A row of the shape table, its GeoJSON already parsed. */
  datatype ShapeRecord = ShapeRecord(geoNameId: string, geoJSON: Surface)

  /** An entry of the custom continent configuration. */
  datatype ConfigEntry = ConfigEntry(
    id: string, code: string, name: Option<string>, bbox: Option<Box>, cc2: Option<seq<string>>)

  /** The lookup tables the transforms join against. */
  datatype Tables = Tables(
    countries: seq<CountryFeature>, timezones: seq<TimezoneRecord>,
    apiCountries: seq<ApiCountry>, srcContinents: seq<Continent>,
    languages: seq<Language>, srcCountries: seq<SrcCountry>, shapes: seq<ShapeRecord>)

  /** The `properties` and geometry of a city feature. */
  datatype CityFeature = CityFeature(
    id: string, slug: string, name: string, country: Ref, population: NumberFormat,
    timezone: Option<Timezone>, point: Position)

  /** The `properties` and geometry of a continent feature. */
  datatype ContinentFeature = ContinentFeature(
    id: string, code: string, slug: string, name: string, countries: seq<Ref>,
    population: NumberFormat, timezone: Option<Timezone>, geometries: seq<Geometry>)

  /** The `properties` and geometry of a country feature. */
  datatype CountryFeature = CountryFeature(
    id: string, code: string, slug: string, name: string, toponym: string,
    continent: Option<Ref>, area: NumberFormat, capital: Option<string>,
    currency: Currency, languages: seq<LanguageRef>, neighbours: seq<Ref>,
    population: NumberFormat, timezone: Option<Timezone>, geometries: seq<Geometry>)

  /** `{ type: 'FeatureCollection', features }`. */
  datatype FeatureCollection<F> = FeatureCollection(features: seq<F>)

  function RefName(r: Ref): string { r.name }
  function LanguageName(l: LanguageRef): string { l.name }
  function CityName(f: CityFeature): string { f.name }
  function ContinentName(f: ContinentFeature): string { f.name }
  function CountryName(f: CountryFeature): string { f.name }

  // ---------------------------------------------------------------------------
  // Lookups: `find(table, matches(field, value))`
  // ---------------------------------------------------------------------------

  function CountryByCode(features: seq<CountryFeature>, code: string): Option<CountryFeature> {
    Find(features, (f: CountryFeature) => f.code == code)
  }

  function TimezoneByName(timezones: seq<TimezoneRecord>, name: string): Option<TimezoneRecord> {
    Find(timezones, (t: TimezoneRecord) => t.name == name)
  }

  function ApiCountryById(api: seq<ApiCountry>, id: string): Option<ApiCountry> {
    Find(api, (a: ApiCountry) => a.geonameId == id)
  }

  /** `matches('cc', [ iso2 ])`: a partial array match, so `cc` only has to contain `iso2`. */
  predicate ListsCountry(c: Continent, iso2: string) {
    c.cc.Some? && iso2 in c.cc.value
  }

  function ContinentByMember(continents: seq<Continent>, iso2: string): Option<Continent> {
    Find(continents, (c: Continent) => ListsCountry(c, iso2))
  }

  function ContinentByCode(continents: seq<Continent>, code: string): Option<Continent> {
    Find(continents, (c: Continent) => c.continentCode == code)
  }

  function LanguageByCode(languages: seq<Language>, code: string): Option<Language> {
    Find(languages, (l: Language) => l.iso6391 == code)
  }

  function SrcCountryByCode(countries: seq<SrcCountry>, code: string): Option<SrcCountry> {
    Find(countries, (c: SrcCountry) => c.iso2 == code)
  }

  function ShapeById(shapes: seq<ShapeRecord>, id: string): Option<ShapeRecord> {
    Find(shapes, (s: ShapeRecord) => s.geoNameId == id)
  }

  function ConfigById(config: seq<ConfigEntry>, id: string): Option<ConfigEntry> {
    Find(config, (e: ConfigEntry) => e.id == id)
  }

  // ---------------------------------------------------------------------------
  // apply (lines 255-268)
  // ---------------------------------------------------------------------------

  /** `list.map(fn)` where `fn` may throw: the first element that throws ends the map. */
  function MapAll<E, F>(list: seq<E>, fn: E -> Result<F, Error>): (r: Result<seq<F>, Error>)
    ensures r.Success? <==> forall i :: 0 <= i < |list| ==> fn(list[i]).Success?
    ensures r.Success? ==> |r.value| == |list| && forall i :: 0 <= i < |list| ==> r.value[i] == fn(list[i]).value
    ensures r.Failure? ==>
      exists i :: && 0 <= i < |list| && fn(list[i]).Failure? && fn(list[i]).error == r.error
                  && forall j :: 0 <= j < i ==> fn(list[j]).Success?
  {
    if |list| == 0 then Success([])
    else match fn(list[0])
      case Failure(e) => Failure(e)
      case Success(x) =>
        match MapAll(list[1..], fn)
        case Failure(e) =>
          assert forall j :: 1 <= j < |list| ==> list[1..][j - 1] == list[j];
          Failure(e)
        case Success(xs) => Success([x] + xs)
  }

  /**
   * `apply(fn)(list, map)`: one feature per element, in a collection sorted by
   * name; features of equal name stay in input order.
   */
  function Apply<E, F(==)>(list: seq<E>, fn: E -> Result<F, Error>, name: F -> string): (r: Result<FeatureCollection<F>, Error>)
    ensures r.Failure? <==> exists i :: 0 <= i < |list| && fn(list[i]).Failure?
    ensures r.Failure? ==> r == Failure(MapAll(list, fn).error)
    ensures r.Success? ==>
      && |r.value.features| == |list|
      && SortedBy(r.value.features, name)
      && multiset(r.value.features) == multiset(MapAll(list, fn).value)
      && forall k :: WithKey(r.value.features, name, k) == WithKey(MapAll(list, fn).value, name, k)
  {
    var features :- MapAll(list, fn);
    Success(FeatureCollection(SortBy(features, name)))
  }

  /** Every feature of a successful `apply` is the transform of some element, and every element's transform is there. */
  lemma ApplyMembers<E, F>(list: seq<E>, fn: E -> Result<F, Error>, name: F -> string)
    requires Apply(list, fn, name).Success?
    ensures forall x :: x in Apply(list, fn, name).value.features <==>
      exists i :: 0 <= i < |list| && fn(list[i]) == Success(x)
  {
    var mapped := MapAll(list, fn).value;
    var features := Apply(list, fn, name).value.features;
    forall x
      ensures x in features <==> exists i :: 0 <= i < |list| && fn(list[i]) == Success(x)
    {
      assert x in features <==> x in multiset(features);
      assert x in mapped <==> x in multiset(mapped);
      if x in mapped {
        var i :| 0 <= i < |mapped| && mapped[i] == x;
        assert fn(list[i]) == Success(x);
      }
      if exists i :: 0 <= i < |list| && fn(list[i]) == Success(x) {
        var i :| 0 <= i < |list| && fn(list[i]) == Success(x);
        assert mapped[i] == x;
      }
    }
  }

  // ---------------------------------------------------------------------------
  // Cities (lines 41-88)
  // ---------------------------------------------------------------------------

  /** Lines 56-60: a city of the United States is named `<name>, <admin1>`. */
  function CityDisplayName(city: CityRecord, countryCode: string): string {
    if countryCode == "US" then city.name + ", " + city.admin1 else city.name
  }

  /** `transformCity`: the city joined with its country and timezone. */
  function TransformCity(city: CityRecord, tables: Tables, services: Services): (r: Result<CityFeature, Error>)
    ensures r.Failure? <==> forall f :: f in tables.countries ==> f.code != city.countryCode
    ensures r.Failure? ==> r.error == NoCountry(city.name)
    ensures r.Success? ==>
      && r.value.id == city.geonameid
      && r.value.country.code == city.countryCode
      && (exists i :: && 0 <= i < |tables.countries|
                      && tables.countries[i].code == city.countryCode
                      && r.value.country == Ref(tables.countries[i].code, tables.countries[i].slug, tables.countries[i].name)
                      && forall j :: 0 <= j < i ==> tables.countries[j].code != city.countryCode)
      && r.value.name == (if city.countryCode == "US" then city.name + ", " + city.admin1 else city.name)
      && city.name <= r.value.name
      && (city.countryCode == "US" <==> r.value.name != city.name)
      && r.value.population == Number(city.population)
      && (r.value.timezone.Some? <==> exists t :: t in tables.timezones && t.name == city.timezone)
      && (r.value.timezone.Some? ==>
            exists i :: && 0 <= i < |tables.timezones|
                        && tables.timezones[i].name == city.timezone
                        && r.value.timezone.value == TimezoneOf(tables.timezones[i])
                        && forall j :: 0 <= j < i ==> tables.timezones[j].name != city.timezone)
      && r.value.slug == services.slugify(r.value.name + "-" + city.countryCode)
      && r.value.point == Coords(Position(city.longitude, city.latitude), None)
  {
    match CountryByCode(tables.countries, city.countryCode)
    case None => Failure(NoCountry(city.name))
    case Some(country) =>
      var name := CityDisplayName(city, country.code);
      var timezone := match TimezoneByName(tables.timezones, city.timezone)
        case None => None
        case Some(t) => Some(TimezoneOf(t));
      Success(CityFeature(
        city.geonameid, services.slugify(name + "-" + country.code), name,
        Ref(country.code, country.slug, country.name), Number(city.population),
        timezone, Coords(Position(city.longitude, city.latitude), None)))
  }

  /** `transformCity` with its tables bound, as `apply` calls it. */
  function CityTransform(tables: Tables, services: Services): CityRecord -> Result<CityFeature, Error> {
    (c: CityRecord) => TransformCity(c, tables, services)
  }

  /** `transformCity` through `apply`: `cities`. */
  function Cities(list: seq<CityRecord>, tables: Tables, services: Services): (r: Result<FeatureCollection<CityFeature>, Error>)
    ensures r.Failure? <==> exists i :: 0 <= i < |list| && forall f :: f in tables.countries ==> f.code != list[i].countryCode
    ensures r.Failure? ==> MapAll(list, CityTransform(tables, services)).Failure? && r.error == MapAll(list, CityTransform(tables, services)).error
    ensures r.Success? ==>
      && |r.value.features| == |list|
      && SortedBy(r.value.features, CityName)
      && MapAll(list, CityTransform(tables, services)).Success?
      && multiset(r.value.features) == multiset(MapAll(list, CityTransform(tables, services)).value)
      && forall k :: WithKey(r.value.features, CityName, k) == WithKey(MapAll(list, CityTransform(tables, services)).value, CityName, k)
  {
    Apply(list, CityTransform(tables, services), CityName)
  }

  // ---------------------------------------------------------------------------
  // Continents (lines 92-128)
  // ---------------------------------------------------------------------------

  /** `{ code, slug, name }` of a country feature. */
  function CountryRef(f: CountryFeature): Ref {
    Ref(f.code, f.slug, f.name)
  }

  /** The country feature lies in the continent with code `code`. */
  predicate InContinent(f: CountryFeature, code: string) {
    f.continent.Some? && f.continent.value.code == code
  }

  /** `InContinent` as a filter predicate. */
  function InContinentOf(code: string): CountryFeature -> bool {
    (f: CountryFeature) => InContinent(f, code)
  }

  /**
   * Lines 94-103: the countries of the continent `code`, in the order of the
   * features; reading the code of a country without a continent throws.
   */
  function Members(features: seq<CountryFeature>, code: string): (r: Result<seq<Ref>, Error>)
    ensures r.Failure? <==> exists i :: 0 <= i < |features| && features[i].continent.None?
    ensures r.Success? ==> r.value == MapSeq(Filter(features, InContinentOf(code)), CountryRef)
  {
    if |features| == 0 then Success([])
    else
      var f := features[0];
      assert forall i :: 1 <= i < |features| ==> features[1..][i - 1] == features[i];
      if f.continent.None? then Failure(NoContinent(f.name))
      else
        var rest :- Members(features[1..], code);
        var kept := Filter(features[1..], InContinentOf(code));
        assert MapSeq([f] + kept, CountryRef) == [CountryRef(f)] + MapSeq(kept, CountryRef) by {
          assert ([f] + kept)[1..] == kept;
        }
        Success((if f.continent.value.code == code then [CountryRef(f)] else []) + rest)
  }

  /** The member list holds at most one entry per feature: the references of exactly the features in the continent. */
  lemma MembersListed(features: seq<CountryFeature>, code: string)
    ensures var refs := MapSeq(Filter(features, InContinentOf(code)), CountryRef);
      && |refs| <= |features|
      && forall x :: x in refs <==> exists i :: 0 <= i < |features| && InContinent(features[i], code) && CountryRef(features[i]) == x
  {
    var p := InContinentOf(code);
    var kept := Filter(features, p);
    var refs := MapSeq(kept, CountryRef);
    SubsequenceLength(kept, features);
    SubsequenceMembers(kept, features);
    forall x
      ensures x in refs <==> exists i :: 0 <= i < |features| && InContinent(features[i], code) && CountryRef(features[i]) == x
    {
      if x in refs {
        var k :| 0 <= k < |refs| && refs[k] == x;
        assert p(kept[k]) && kept[k] in features;
        var i :| 0 <= i < |features| && features[i] == kept[k];
        assert InContinent(features[i], code) && CountryRef(features[i]) == x;
      }
      if exists i :: 0 <= i < |features| && InContinent(features[i], code) && CountryRef(features[i]) == x {
        var i :| 0 <= i < |features| && InContinent(features[i], code) && CountryRef(features[i]) == x;
        assert p(features[i]);
        assert features[i] in kept;
        var k :| 0 <= k < |kept| && kept[k] == features[i];
        assert refs[k] == x;
      }
    }
  }

  /** Coordinates of the continent's centre and its bounding box, in that order. */
  function ContinentGeometries(continent: Continent): (r: Result<seq<Geometry>, Error>)
    ensures r.Failure? <==> continent.bbox.None?
    ensures r.Success? ==>
      && |r.value| == 2
      && r.value[0] == Point(Coords(Position(continent.lng, continent.lat), None))
      && r.value[1] == Area(Polygon(BBox(continent.bbox.value)))
  {
    match continent.bbox
    case None => Failure(NoBox(continent.name))
    case Some(box) =>
      Success([Point(Coords(Position(continent.lng, continent.lat), None)), Area(Polygon(BBox(box)))])
  }

  /** `transformContinent`: the continent with its member countries sorted by name. */
  function TransformContinent(continent: Continent, features: seq<CountryFeature>, slugify: string -> string): (r: Result<ContinentFeature, Error>)
    ensures r.Failure? <==> continent.bbox.None? || exists i :: 0 <= i < |features| && features[i].continent.None?
    ensures r.Success? ==>
      && r.value.id == continent.geonameId
      && r.value.code == continent.continentCode
      && r.value.slug == slugify(continent.name)
      && r.value.name == continent.name
      && r.value.population == Number(continent.population)
      && (r.value.timezone.Some? <==> continent.timezone.Some?)
      && (r.value.timezone.Some? ==> r.value.timezone.value == TimezoneOf(continent.timezone.value))
      && ContinentGeometries(continent) == Success(r.value.geometries)
    ensures r.Success? ==>
      && SortedBy(r.value.countries, RefName)
      && multiset(r.value.countries) == multiset(MapSeq(Filter(features, InContinentOf(continent.continentCode)), CountryRef))
      && (forall k :: WithKey(r.value.countries, RefName, k) == WithKey(MapSeq(Filter(features, InContinentOf(continent.continentCode)), CountryRef), RefName, k))
      && forall x :: x in r.value.countries <==>
           exists i :: 0 <= i < |features| && InContinent(features[i], continent.continentCode) && CountryRef(features[i]) == x
  {
    var members :- Members(features, continent.continentCode);
    MembersListed(features, continent.continentCode);
    var geometries :- ContinentGeometries(continent);
    var countries := SortBy(members, RefName);
    assert forall x :: x in countries <==> x in multiset(countries);
    assert forall x :: x in members <==> x in multiset(members);
    var timezone := match continent.timezone
      case None => None
      case Some(t) => Some(TimezoneOf(t));
    Success(ContinentFeature(
      continent.geonameId, continent.continentCode, slugify(continent.name), continent.name,
      countries, Number(continent.population), timezone, geometries))
  }

  /** `transformContinent` with the country features bound, as `apply` calls it. */
  function ContinentTransform(features: seq<CountryFeature>, slugify: string -> string): Continent -> Result<ContinentFeature, Error> {
    (c: Continent) => TransformContinent(c, features, slugify)
  }

  /** `transformContinent` through `apply`: `continents`. */
  function Continents(list: seq<Continent>, features: seq<CountryFeature>, slugify: string -> string): (r: Result<FeatureCollection<ContinentFeature>, Error>)
    ensures r.Failure? <==>
      || (exists i :: 0 <= i < |list| && list[i].bbox.None?)
      || (|list| > 0 && exists i :: 0 <= i < |features| && features[i].continent.None?)
    ensures r.Failure? ==> MapAll(list, ContinentTransform(features, slugify)).Failure? && r.error == MapAll(list, ContinentTransform(features, slugify)).error
    ensures r.Success? ==>
      && |r.value.features| == |list|
      && SortedBy(r.value.features, ContinentName)
      && MapAll(list, ContinentTransform(features, slugify)).Success?
      && multiset(r.value.features) == multiset(MapAll(list, ContinentTransform(features, slugify)).value)
      && forall k :: WithKey(r.value.features, ContinentName, k) == WithKey(MapAll(list, ContinentTransform(features, slugify)).value, ContinentName, k)
  {
    ContinentsFail(list, features, slugify);
    Apply(list, ContinentTransform(features, slugify), ContinentName)
  }

  /** Some continent fails to transform exactly when one lacks a box, or when any does and a country lacks a continent. */
  lemma ContinentsFail(list: seq<Continent>, features: seq<CountryFeature>, slugify: string -> string)
    ensures (exists i :: 0 <= i < |list| && ContinentTransform(features, slugify)(list[i]).Failure?) <==>
      || (exists i :: 0 <= i < |list| && list[i].bbox.None?)
      || (|list| > 0 && exists i :: 0 <= i < |features| && features[i].continent.None?)
  {
    if |list| > 0 {
      var fails := TransformContinent(list[0], features, slugify).Failure?;
      assert ContinentTransform(features, slugify)(list[0]).Failure? == fails;
    }
  }

  // ---------------------------------------------------------------------------
  // Countries (lines 132-240)
  // ---------------------------------------------------------------------------

  /** Lines 140-151: the first continent listing the country, else the first with its continent code. */
  function CountryContinent(country: CountryRecord, continents: seq<Continent>, slugify: string -> string): (r: Option<Ref>)
    ensures r.None? <==>
      forall c :: c in continents ==> !ListsCountry(c, country.iso2) && c.continentCode != country.continent
    ensures r.Some? ==>
      exists i :: && 0 <= i < |continents|
                  && r.value == Ref(continents[i].continentCode, slugify(continents[i].name), continents[i].name)
                  && (|| (&& ListsCountry(continents[i], country.iso2)
                          && forall j :: 0 <= j < i ==> !ListsCountry(continents[j], country.iso2))
                      || (&& (forall c :: c in continents ==> !ListsCountry(c, country.iso2))
                          && continents[i].continentCode == country.continent
                          && forall j :: 0 <= j < i ==> continents[j].continentCode != country.continent))
  {
    var found := match ContinentByMember(continents, country.iso2)
      case Some(c) => Some(c)
      case None => ContinentByCode(continents, country.continent);
    match found
    case None => None
    case Some(c) => Some(Ref(c.continentCode, slugify(c.name), c.name))
  }

  /** Some entry of `listed` has code `code`: `find(languages, matches('code', code))`. */
  predicate Listed(listed: seq<LanguageRef>, code: string) {
    exists i :: 0 <= i < |listed| && listed[i].code == code
  }

  /** The language entry of a table row. */
  function LanguageEntry(l: Language): LanguageRef {
    LanguageRef(l.iso6391, l.name)
  }

  /** No two entries share a code. */
  predicate DistinctCodes(r: seq<LanguageRef>) {
    forall i, j :: 0 <= i < j < |r| ==> r[i].code != r[j].code
  }

  /** `c` is the first two characters of one of the codes. */
  predicate Mentioned(codes: seq<string>, c: string) {
    exists j :: 0 <= j < |codes| && Take(codes[j], 2) == c
  }

  /** The entry is the language table's row for its code. */
  predicate Known(table: seq<Language>, e: LanguageRef) {
    LanguageByCode(table, e.code) == Some(Language(e.code, e.name))
  }

  /** Every entry is the table's row for the first two characters of one of the codes. */
  predicate FromCodes(r: seq<LanguageRef>, codes: seq<string>, table: seq<Language>) {
    forall i :: 0 <= i < |r| ==> Known(table, r[i]) && Mentioned(codes, r[i].code)
  }

  /** Every code whose first two characters the table knows has an entry. */
  predicate CoversCodes(r: seq<LanguageRef>, codes: seq<string>, table: seq<Language>) {
    forall j :: 0 <= j < |codes| && LanguageByCode(table, Take(codes[j], 2)).Some? ==> Listed(r, Take(codes[j], 2))
  }

  /**
   * Lines 154-161 over `codes`: the language of the first two characters of
   * every code, when the table has it and it is not listed yet.
   */
  function Languages(codes: seq<string>, table: seq<Language>): (r: seq<LanguageRef>)
    ensures DistinctCodes(r)
    ensures FromCodes(r, codes, table)
    ensures CoversCodes(r, codes, table)
  {
    if |codes| == 0 then []
    else
      var n := |codes| - 1;
      var prev := Languages(codes[..n], table);
      var r := AddLanguage(prev, Take(codes[n], 2), table);
      AddLanguageStep(prev, codes, table);
      r
  }

  /** One turn of the `forEach`: append the row for `code` unless it is missing or listed. */
  function AddLanguage(listed: seq<LanguageRef>, code: string, table: seq<Language>): seq<LanguageRef> {
    match LanguageByCode(table, code)
    case Some(l) => if !Listed(listed, code) then listed + [LanguageEntry(l)] else listed
    case None => listed
  }

  lemma AddLanguageStep(prev: seq<LanguageRef>, codes: seq<string>, table: seq<Language>)
    requires |codes| > 0
    requires var n := |codes| - 1;
      DistinctCodes(prev) && FromCodes(prev, codes[..n], table) && CoversCodes(prev, codes[..n], table)
    ensures var r := AddLanguage(prev, Take(codes[|codes| - 1], 2), table);
      DistinctCodes(r) && FromCodes(r, codes, table) && CoversCodes(r, codes, table)
  {
    var n := |codes| - 1;
    var code := Take(codes[n], 2);
    MentionedGrow(codes);
    CoversCodesGrow(prev, codes, table);
    assert Mentioned(codes, code);
    match LanguageByCode(table, code)
    case None =>
    case Some(l) =>
      if !Listed(prev, code) {
        AppendLanguage(prev, codes, table, l);
      }
  }

  /** Appending the row for the last code keeps the three properties. */
  lemma AppendLanguage(prev: seq<LanguageRef>, codes: seq<string>, table: seq<Language>, l: Language)
    requires |codes| > 0
    requires var code := Take(codes[|codes| - 1], 2);
      LanguageByCode(table, code) == Some(l) && !Listed(prev, code) && Mentioned(codes, code)
    requires DistinctCodes(prev) && FromCodes(prev, codes, table)
    requires forall j :: 0 <= j < |codes| - 1 && LanguageByCode(table, Take(codes[j], 2)).Some? ==> Listed(prev, Take(codes[j], 2))
    ensures var r := prev + [LanguageEntry(l)];
      DistinctCodes(r) && FromCodes(r, codes, table) && CoversCodes(r, codes, table)
  {
    var n := |codes| - 1;
    var code := Take(codes[n], 2);
    var r := prev + [LanguageEntry(l)];
    assert l.iso6391 == code;
    assert r[|prev|] == LanguageRef(code, l.name);
    forall j | 0 <= j < |codes| && LanguageByCode(table, Take(codes[j], 2)).Some?
      ensures Listed(r, Take(codes[j], 2))
    {
      if j == n {
        assert r[|prev|].code == Take(codes[j], 2);
      } else {
        var i :| 0 <= i < |prev| && prev[i].code == Take(codes[j], 2);
        assert r[i] == prev[i];
      }
    }
  }

  /** A code mentioned by the first `n` codes is mentioned by all of them. */
  lemma MentionedGrow(codes: seq<string>)
    requires |codes| > 0
    ensures forall c :: Mentioned(codes[..|codes| - 1], c) ==> Mentioned(codes, c)
  {
    var n := |codes| - 1;
    forall c | Mentioned(codes[..n], c)
      ensures Mentioned(codes, c)
    {
      var j :| 0 <= j < n && Take(codes[..n][j], 2) == c;
      assert codes[..n][j] == codes[j];
    }
  }

  /** Entries covering the first `n` codes still cover them. */
  lemma CoversCodesGrow(prev: seq<LanguageRef>, codes: seq<string>, table: seq<Language>)
    requires |codes| > 0 && CoversCodes(prev, codes[..|codes| - 1], table)
    ensures forall j :: 0 <= j < |codes| - 1 && LanguageByCode(table, Take(codes[j], 2)).Some? ==> Listed(prev, Take(codes[j], 2))
  {
    var n := |codes| - 1;
    forall j | 0 <= j < n && LanguageByCode(table, Take(codes[j], 2)).Some?
      ensures Listed(prev, Take(codes[j], 2))
    {
      assert codes[..n][j] == codes[j];
    }
  }

  /** Listing languages never repeats a code, so the list has at most one entry per table row. */
  lemma {:induction false} LanguagesBounded(codes: seq<string>, table: seq<Language>)
    ensures |Languages(codes, table)| <= |codes|
  {
    if |codes| > 0 {
      LanguagesBounded(codes[..|codes| - 1], table);
    }
  }

  /** The neighbour entry of a country row. */
  function NeighbourRef(c: SrcCountry, slugify: string -> string): Ref {
    Ref(c.iso2, slugify(c.name), c.name)
  }

  /** The code names a row of the country table. */
  function Resolves(table: seq<SrcCountry>): string -> bool {
    (code: string) => SrcCountryByCode(table, code).Some?
  }

  /** `x` is the reference of a country some code of `codes` resolves to. */
  predicate TracesTo(x: Ref, codes: seq<string>, table: seq<SrcCountry>, slugify: string -> string) {
    exists j :: && 0 <= j < |codes| && SrcCountryByCode(table, codes[j]).Some?
                && x == NeighbourRef(SrcCountryByCode(table, codes[j]).value, slugify)
  }

  /** Every entry traces back to a code the country table resolves. */
  predicate NeighboursSound(r: seq<Ref>, codes: seq<string>, table: seq<SrcCountry>, slugify: string -> string) {
    forall i :: 0 <= i < |r| ==> TracesTo(r[i], codes, table, slugify)
  }

  lemma TracesAt(x: Ref, codes: seq<string>, table: seq<SrcCountry>, slugify: string -> string, j: nat)
    requires j < |codes| && SrcCountryByCode(table, codes[j]).Some?
    requires x == NeighbourRef(SrcCountryByCode(table, codes[j]).value, slugify)
    ensures TracesTo(x, codes, table, slugify)
  {
  }

  /** Every code the country table resolves has its entry. */
  predicate NeighboursComplete(r: seq<Ref>, codes: seq<string>, table: seq<SrcCountry>, slugify: string -> string) {
    forall j :: 0 <= j < |codes| && SrcCountryByCode(table, codes[j]).Some? ==>
      NeighbourRef(SrcCountryByCode(table, codes[j]).value, slugify) in r
  }

  /** The entry one code contributes: its reference when the country table resolves it. */
  function NeighbourHead(code: string, table: seq<SrcCountry>, slugify: string -> string): seq<Ref> {
    match SrcCountryByCode(table, code)
    case Some(c) => [NeighbourRef(c, slugify)]
    case None => []
  }

  /** Entry `i` of `r` is the reference of the country the `i`-th resolving code names. */
  predicate NeighboursInOrder(r: seq<Ref>, codes: seq<string>, table: seq<SrcCountry>, slugify: string -> string) {
    var resolved := Filter(codes, Resolves(table));
    && |r| == |resolved|
    && forall i :: 0 <= i < |r| ==>
         Resolves(table)(resolved[i]) && r[i] == NeighbourRef(SrcCountryByCode(table, resolved[i]).value, slugify)
  }

  /** Lines 164-174 over `codes`: one entry per code the country table resolves, in the order of the codes. */
  function Neighbours(codes: seq<string>, table: seq<SrcCountry>, slugify: string -> string): (r: seq<Ref>)
    ensures NeighboursInOrder(r, codes, table, slugify)
    ensures NeighboursSound(r, codes, table, slugify)
    ensures NeighboursComplete(r, codes, table, slugify)
  {
    if |codes| == 0 then []
    else
      var rest := Neighbours(codes[1..], table, slugify);
      NeighboursInOrderStep(codes, table, slugify, rest);
      NeighboursSoundStep(codes, table, slugify, rest);
      NeighboursCompleteStep(codes, table, slugify, rest);
      NeighbourHead(codes[0], table, slugify) + rest
  }

  lemma NeighboursInOrderStep(codes: seq<string>, table: seq<SrcCountry>, slugify: string -> string, rest: seq<Ref>)
    requires |codes| > 0
    requires NeighboursInOrder(rest, codes[1..], table, slugify)
    ensures NeighboursInOrder(NeighbourHead(codes[0], table, slugify) + rest, codes, table, slugify)
  {
    match SrcCountryByCode(table, codes[0])
    case None =>
      assert !Resolves(table)(codes[0]);
      assert Filter(codes, Resolves(table)) == Filter(codes[1..], Resolves(table));
      assert NeighbourHead(codes[0], table, slugify) + rest == rest;
    case Some(c) =>
      NeighboursResolvedStep(codes, table, slugify, rest, c);
  }

  /** A resolving first code puts its country's reference ahead of the rest. */
  lemma NeighboursResolvedStep(codes: seq<string>, table: seq<SrcCountry>, slugify: string -> string, rest: seq<Ref>, c: SrcCountry)
    requires |codes| > 0 && SrcCountryByCode(table, codes[0]) == Some(c)
    requires NeighboursInOrder(rest, codes[1..], table, slugify)
    ensures NeighboursInOrder([NeighbourRef(c, slugify)] + rest, codes, table, slugify)
  {
    var p := Resolves(table);
    assert p(codes[0]);
    var tail := Filter(codes[1..], p);
    var resolved := [codes[0]] + tail;
    assert Filter(codes, p) == resolved;
    var r := [NeighbourRef(c, slugify)] + rest;
    forall i | 0 <= i < |r|
      ensures p(resolved[i]) && r[i] == NeighbourRef(SrcCountryByCode(table, resolved[i]).value, slugify)
    {
      if i > 0 {
        assert resolved[i] == tail[i - 1] && r[i] == rest[i - 1];
      }
    }
  }

  lemma NeighboursSoundStep(codes: seq<string>, table: seq<SrcCountry>, slugify: string -> string, rest: seq<Ref>)
    requires |codes| > 0
    requires NeighboursSound(rest, codes[1..], table, slugify)
    ensures NeighboursSound(NeighbourHead(codes[0], table, slugify) + rest, codes, table, slugify)
  {
    var head := NeighbourHead(codes[0], table, slugify);
    var r := head + rest;
    forall i | 0 <= i < |r|
      ensures TracesTo(r[i], codes, table, slugify)
    {
      if i < |head| {
        assert r[i] == NeighbourRef(SrcCountryByCode(table, codes[0]).value, slugify);
        TracesAt(r[i], codes, table, slugify, 0);
      } else {
        var k := i - |head|;
        assert r[i] == rest[k];
        assert TracesTo(rest[k], codes[1..], table, slugify);
        var j :| && 0 <= j < |codes[1..]| && SrcCountryByCode(table, codes[1..][j]).Some?
                 && rest[k] == NeighbourRef(SrcCountryByCode(table, codes[1..][j]).value, slugify);
        assert codes[1..][j] == codes[j + 1];
        TracesAt(r[i], codes, table, slugify, j + 1);
      }
    }
  }

  lemma NeighboursCompleteStep(codes: seq<string>, table: seq<SrcCountry>, slugify: string -> string, rest: seq<Ref>)
    requires |codes| > 0
    requires NeighboursComplete(rest, codes[1..], table, slugify)
    ensures NeighboursComplete(NeighbourHead(codes[0], table, slugify) + rest, codes, table, slugify)
  {
    var r := NeighbourHead(codes[0], table, slugify) + rest;
    forall j | 0 <= j < |codes| && SrcCountryByCode(table, codes[j]).Some?
      ensures NeighbourRef(SrcCountryByCode(table, codes[j]).value, slugify) in r
    {
      if j > 0 {
        assert codes[1..][j - 1] == codes[j];
      }
    }
  }

  /** The API record has both coordinates of the country's centre. */
  predicate HasPoint(source: Option<ApiCountry>) {
    source.Some? && source.value.lng.Some? && source.value.lat.Some?
  }

  /** The API record has the country's bounding box. */
  predicate HasBox(source: Option<ApiCountry>) {
    source.Some? && source.value.bbox.Some?
  }

  /** Lines 198-206: the reduced shape, when the shape table has the country. */
  function ShapeGeometry(country: CountryRecord, shape: Option<ShapeRecord>, services: Services): (r: Result<seq<Geometry>, Error>)
    ensures shape.None? ==> r == Success([])
    ensures r.Failure? <==> shape.Some? && Reduce(shape.value.geoJSON, services.round, services.fuel).None?
    ensures r.Success? && shape.Some? ==> r.value == [Area(Reduce(shape.value.geoJSON, services.round, services.fuel).value)]
  {
    match shape
    case None => Success([])
    case Some(s) =>
      match Reduce(s.geoJSON, services.round, services.fuel)
      case None => Failure(ShapeNotReduced(country.name))
      case Some(reduced) => Success([Area(reduced)])
  }

  /** Lines 176-206: the point, the box and the reduced shape, each when its record exists. */
  function CountryGeometries(country: CountryRecord, source: Option<ApiCountry>, shape: Option<ShapeRecord>, services: Services): (r: Result<seq<Geometry>, Error>)
    ensures r.Failure? <==> ShapeGeometry(country, shape, services).Failure?
    ensures r.Success? ==>
      |r.value| == (if HasPoint(source) then 1 else 0) + (if HasBox(source) then 1 else 0) + (if shape.Some? then 1 else 0)
    ensures r.Success? ==> forall i :: 0 <= i < |r.value| && r.value[i].Point? ==> i == 0 && HasPoint(source)
    ensures r.Success? && HasPoint(source) ==>
      r.value[0] == Point(Coords(Position(source.value.lng.value, source.value.lat.value), None))
    ensures r.Success? && HasBox(source) ==>
      r.value[if HasPoint(source) then 1 else 0] == Area(Polygon(BBox(source.value.bbox.value)))
    ensures r.Success? && shape.Some? ==>
      r.value[|r.value| - 1] == ShapeGeometry(country, shape, services).value[0]
  {
    var point := if HasPoint(source)
      then [Point(Coords(Position(source.value.lng.value, source.value.lat.value), None))] else [];
    var box := if HasBox(source) then [Area(Polygon(BBox(source.value.bbox.value)))] else [];
    var reduced :- ShapeGeometry(country, shape, services);
    Success(point + box + reduced)
  }

  /** Line 225: the API's toponym when it is set, else the country's name. */
  function Toponym(country: CountryRecord, source: Option<ApiCountry>): (r: string)
    ensures source.Some? && Truthy(source.value.toponymName) ==> r == source.value.toponymName.value
    ensures !(source.Some? && Truthy(source.value.toponymName)) ==> r == country.name
  {
    if source.Some? && Truthy(source.value.toponymName) then source.value.toponymName.value else country.name
  }

  /** Line 228: `capital || null`, an empty capital counting as none. */
  function Capital(country: CountryRecord): (r: Option<string>)
    ensures r.Some? <==> Truthy(country.capital)
    ensures r.Some? ==> r == country.capital
  {
    if Truthy(country.capital) then country.capital else None
  }

  /** `transformCountry`: the country joined with its continent, languages, neighbours, geometries and timezone. */
  function TransformCountry(country: CountryRecord, tables: Tables, services: Services): (r: Result<CountryFeature, Error>)
    ensures var shape := ShapeById(tables.shapes, country.geonameid);
      r.Failure? <==> shape.Some? && Reduce(shape.value.geoJSON, services.round, services.fuel).None?
    ensures r.Success? ==>
      && SortedBy(r.value.languages, LanguageName)
      && (forall i, j :: 0 <= i < j < |r.value.languages| ==> r.value.languages[i].code != r.value.languages[j].code)
      && SortedBy(r.value.neighbours, RefName)
      && multiset(r.value.neighbours) == multiset(Neighbours(Split(country.neighbours, ','), tables.srcCountries, services.slugify))
      && multiset(r.value.languages) == multiset(Languages(Split(country.languages, ','), tables.languages))
  ensures r.Success? ==>
      && (forall k :: WithKey(r.value.neighbours, RefName, k) == WithKey(Neighbours(Split(country.neighbours, ','), tables.srcCountries, services.slugify), RefName, k))
      && (forall k :: WithKey(r.value.languages, LanguageName, k) == WithKey(Languages(Split(country.languages, ','), tables.languages), LanguageName, k))
  ensures r.Success? ==>
      var source := ApiCountryById(tables.apiCountries, country.geonameid);
      && CountryGeometries(country, source, ShapeById(tables.shapes, country.geonameid), services) == Success(r.value.geometries)
      && r.value.toponym == Toponym(country, source)
      && r.value.capital == Capital(country)
      && r.value.continent == CountryContinent(country, tables.srcContinents, services.slugify)
      && (r.value.timezone.Some? <==> source.Some? && source.value.timezone.Some?)
      && (r.value.timezone.Some? ==> r.value.timezone.value == TimezoneOf(source.value.timezone.value))
  ensures r.Success? ==>
      && r.value.id == country.geonameid && r.value.code == country.iso2 && r.value.name == country.name
      && r.value.slug == services.slugify(country.name)
      && r.value.area == Number(country.area) && r.value.population == Number(country.population)
      && r.value.currency == Currency(country.currencyCode, country.currencyName)
  {
    var source := ApiCountryById(tables.apiCountries, country.geonameid);
    var shape := ShapeById(tables.shapes, country.geonameid);
    var geometries :- CountryGeometries(country, source, shape, services);
    var listed := Languages(Split(country.languages, ','), tables.languages);
    var languages := SortBy(listed, LanguageName);
    assert forall i, j :: 0 <= i < j < |languages| ==> languages[i].code != languages[j].code by {
      forall i, j | 0 <= i < j < |languages|
        ensures languages[i].code != languages[j].code
      {
        DistinctCodesKept(listed, languages, i, j);
      }
    }
    var neighbours := SortBy(Neighbours(Split(country.neighbours, ','), tables.srcCountries, services.slugify), RefName);
    var timezone := if source.Some? && source.value.timezone.Some? then Some(TimezoneOf(source.value.timezone.value)) else None;
    Success(CountryFeature(
      country.geonameid, country.iso2, services.slugify(country.name), country.name,
      Toponym(country, source), CountryContinent(country, tables.srcContinents, services.slugify),
      Number(country.area), Capital(country), Currency(country.currencyCode, country.currencyName),
      languages, neighbours, Number(country.population), timezone, geometries))
  }

  /** A permutation of a list with distinct codes has distinct codes. */
  lemma DistinctCodesKept(listed: seq<LanguageRef>, sorted: seq<LanguageRef>, i: nat, j: nat)
    requires forall a, b :: 0 <= a < b < |listed| ==> listed[a].code != listed[b].code
    requires multiset(sorted) == multiset(listed)
    requires i < j < |sorted|
    ensures sorted[i].code != sorted[j].code
  {
    if sorted[i].code == sorted[j].code {
      assert sorted[i] in multiset(listed) && sorted[j] in multiset(listed);
      var a :| 0 <= a < |listed| && listed[a] == sorted[i];
      var b :| 0 <= b < |listed| && listed[b] == sorted[j];
      if a == b {
        // The same entry sits twice in `sorted`, so twice in `listed`.
        assert sorted[i] == sorted[j];
        var m := multiset(sorted);
        assert m[sorted[i]] >= 2 by {
          assert sorted == sorted[..i] + [sorted[i]] + sorted[i + 1..j] + [sorted[j]] + sorted[j + 1..];
        }
        TwiceInList(listed, sorted[i]);
      }
    }
  }

  /** An element occurring at least twice sits at two positions. */
  lemma TwiceInList(s: seq<LanguageRef>, x: LanguageRef)
    requires multiset(s)[x] >= 2
    ensures exists a, b :: 0 <= a < b < |s| && s[a] == x && s[b] == x
  {
    var a :| 0 <= a < |s| && s[a] == x;
    assert s == s[..a] + [x] + s[a + 1..];
    assert multiset(s[..a] + s[a + 1..])[x] >= 1;
    assert x in s[..a] + s[a + 1..];
    var k :| 0 <= k < |s[..a] + s[a + 1..]| && (s[..a] + s[a + 1..])[k] == x;
    if k < a {
      assert s[k] == x;
    } else {
      assert s[k + 1] == x;
    }
  }

  /** `transformCountry` through `apply`: `countries`. */
  /** `transformCountry` with its tables bound, as `apply` calls it. */
  function CountryTransform(tables: Tables, services: Services): CountryRecord -> Result<CountryFeature, Error> {
    (c: CountryRecord) => TransformCountry(c, tables, services)
  }

  function Countries(list: seq<CountryRecord>, tables: Tables, services: Services): (r: Result<FeatureCollection<CountryFeature>, Error>)
    ensures r.Failure? ==> r.error.ShapeNotReduced?
    ensures r.Failure? ==> MapAll(list, CountryTransform(tables, services)).Failure? && r.error == MapAll(list, CountryTransform(tables, services)).error
    ensures r.Success? ==>
      && |r.value.features| == |list|
      && SortedBy(r.value.features, CountryName)
      && MapAll(list, CountryTransform(tables, services)).Success?
      && multiset(r.value.features) == multiset(MapAll(list, CountryTransform(tables, services)).value)
      && forall k :: WithKey(r.value.features, CountryName, k) == WithKey(MapAll(list, CountryTransform(tables, services)).value, CountryName, k)
  {
    Apply(list, CountryTransform(tables, services), CountryName)
  }

  // ---------------------------------------------------------------------------
  // Custom continents (lines 243-252)
  // ---------------------------------------------------------------------------

  /** One custom continent completed from the configuration entry whose `id` is its name. */
  function CustomContinent(continent: Continent, config: seq<ConfigEntry>): (r: Result<Continent, Error>)
    ensures r.Failure? <==>
      || ConfigById(config, continent.name).None?
      || (ConfigById(config, continent.name).value.cc2.None? && continent.cc2.None?)
    ensures r.Success? ==>
      var data := ConfigById(config, continent.name).value;
      && data.id == continent.name
      && r.value.continentCode == data.code
      && r.value.name == (if Truthy(data.name) then data.name.value else continent.name)
      && r.value.bbox == (if data.bbox.Some? then data.bbox else continent.bbox)
      && r.value.cc.Some?
      && (data.cc2.Some? ==> r.value.cc == data.cc2)
      && (data.cc2.None? ==> |r.value.cc.value| >= 1 && Join(r.value.cc.value, ',') == continent.cc2.value)
      && (data.cc2.None? ==> forall i :: 0 <= i < |r.value.cc.value| ==> ',' !in r.value.cc.value[i])
      && r.value.(continentCode := continent.continentCode, name := continent.name,
                  bbox := continent.bbox, cc := continent.cc) == continent
  {
    match ConfigById(config, continent.name)
    case None => Failure(NoConfig(continent.name))
    case Some(data) =>
      var cc :- match data.cc2
        case Some(codes) => Success(codes)
        case None =>
          if continent.cc2.None? then Failure(NoCountryCodes(continent.name))
          else Success(Split(continent.cc2.value, ','));
      Success(continent.(
        continentCode := data.code,
        name := if Truthy(data.name) then data.name.value else continent.name,
        bbox := if data.bbox.Some? then data.bbox else continent.bbox,
        cc := Some(cc)))
  }

  /** `transformCustom`: every custom continent completed, in input order. */
  function TransformCustom(continents: seq<Continent>, config: seq<ConfigEntry>): (r: Result<seq<Continent>, Error>)
    ensures r.Success? ==> |r.value| == |continents|
    ensures r.Success? ==> forall i :: 0 <= i < |continents| ==> CustomContinent(continents[i], config) == Success(r.value[i])
    ensures r.Failure? <==> exists i :: 0 <= i < |continents| && CustomContinent(continents[i], config).Failure?
  {
    MapAll(continents, (c: Continent) => CustomContinent(c, config))
  }
}

=== FILE: wrappers.dfy ===
/** Failure-compatible wrappers shared by every module of the model. */
module Wrappers {

  /** A value that may be absent: JavaScript's `null`/`undefined` against a present value. */
  datatype Option<+T> = None | Some(value: T) {

    predicate IsFailure() {
      None?
    }

    function PropagateFailure<U>(): Option<U>
      requires None?
    {
      None
    }

    function Extract(): T
      requires Some?
    {
      value
    }

    /** The `x || fallback` idiom on an optional value. */
    function GetOr(default: T): T {
      match this
      case Some(v) => v
      case None => default
    }
  }

  /** The outcome of an operation that can throw: a value, or the error thrown. */
  datatype Result<+R, +E> = Success(value: R) | Failure(error: E) {

    predicate IsFailure() {
      Failure?
    }

    function PropagateFailure<U>(): Result<U, E>
      requires Failure?
    {
      Failure(error)
    }

    function Extract(): R
      requires Success?
    {
      value
    }
  }
}
